=== FILE: README.md ===
# Image index, food-class overlay and object counts, in Dafny

This project models three pieces of sequential decision logic of a small
food-image toolkit, over exact integers and reals, and proves what they
promise.

1. **The image-similarity service** (`main.py`). The service state is an
   exact L2 vector index, like FAISS's `IndexFlatL2`, plus a parallel list of
   metadata records. Modules `FlatIndex` and `ImageIndex` cover it:
   - `add_image_to_index` deduplicates by exact path, describes the image,
     embeds the description and appends one vector and one record;
   - `search_similar_images` takes the `min(top_k, ntotal)` nearest vectors,
     joins them against the metadata, ranks them from 1 and scores them
     `100 / (1 + distance)`;
   - `get_index_stats` reports the sizes;
   - `lifespan` loads the index at start-up and saves it at shutdown.

   The vision model and the embedding model are the parameters `describe`
   and `embed`, which return `None` when the call raises. The two module
   globals are one immutable `State`. A mutating call returns a
   `Transition` with the new state and the reply, so "a failure changes
   nothing" can be stated and proved.
2. **The fake-YOLO overlay** (`yolo_faking/fake_yolo_detection.py`):
   - module `FoodMapper` is the ordered rule table of
     `FoodClassMapper.map_detection_to_food_class`, with `CLASS_COLORS`;
   - module `FrameOverlay` is the per-frame choice of the most confident
     detection per food class and the hard-coded burger and fries boxes;
   - module `OutputName` is `get_next_output_filename`, with the file
     system given as a set of existing paths.
3. **Object counting** (`object_permanence.py`). Module `ObjectCounts`
   counts boxes per class for each image, selects and sorts the image files
   by extension, and builds the CSV table of `process_images`: the header
   is `"image"` plus the sorted union of classes, and each row is
   zero-filled. The YOLO model call is the parameter `infer`.

Module `Text` holds the string helpers these share:
- ASCII lower-casing;
- Python's code-point order on `str`, with `sorted()` and `list.sort()`;
- `str(n)` for naturals;
- the `pathlib` name, stem and suffix of a POSIX path.

Module `Wrappers` holds `Option` and `Result`.

The model follows the code as written:
- an add stores one description per image;
- deduplication compares the exact `image_path` string;
- the only distance is squared L2, and the only score is `100 / (1 + d)`.

Two behaviours of the code are modelled as written:
- The row dictionary of `process_images` starts as `{"image": name}` and is
  then updated with the counts. So an image in which a class literally
  named `image` is detected shows that count instead of its file name
  (`ObjectCounts.ImageClassOverwritesName`). The header then also repeats
  `image` (`ObjectCounts.HeaderDistinctUnlessImageClass`). Both `image`
  columns are filled by `result_row.get("image", 0)`, so in an image without
  that class both show the file name, not 0
  (`ObjectCounts.ImageFieldsHoldNameOrCount`).
- Records restored from disk are only known to be dictionaries. So each
  key is optional. The path listing reads a missing path as `""`, and a
  search that meets a record without a key fails (`MissingKey`).

## Model

| member | source | states |
|---|---|---|
| FlatIndex.Empty | main.py:56 | A new `IndexFlatL2(d)` holds no vectors and has dimension d |
| FlatIndex.Append | main.py:171 | `index.add` keeps the dimension, grows `ntotal` by one, keeps the old vectors in place and puts the new one last |
| FlatIndex.SquaredL2 | main.py:52 | The L2 index's score is never negative |
| FlatIndex.SquaredL2ToSelf | main.py:52 | A stored vector is at distance 0 from an identical query |
| FlatIndex.Sort | main.py:209-211 | The brute-force ranking is a permutation of the candidates, ordered by distance, ties by ascending position |
| FlatIndex.Search | main.py:209-211 | `index.search(q, k)` returns exactly k distinct positions, nearest first, each with its true squared distance. A position left out is no nearer than any position returned, and when equally near it has the higher position |
| FlatIndex.PrefixIsNearest | main.py:209-211 | The first k entries of the distance-sorted candidates come before every stored vector not among them: none of those is nearer, and an equally near one has the higher position |
| ImageIndex.Fresh | main.py:55-57 | The fallback index is empty, has dimension `EMBEDDING_DIM` = 1536, and has no metadata, so it is consistent |
| ImageIndex.IndexedImagePaths | main.py:32-34 | One path per record, in insertion order, with `""` where the key is missing |
| ImageIndex.StoredPath | main.py:175 | The stored path is the given path when it is non-empty, else `"uploaded"`; it is never empty |
| ImageIndex.AddImage | main.py:147-186 | A known non-empty path yields "already in index" with the current `ntotal` and no change. A success appends exactly `embed(describe(image))` and one record holding the stored path and the description, and reports the new size. Any failure leaves vectors and metadata unchanged. The add succeeds exactly when the index exists and the path is known or both remote calls succeed with the right dimension. `ntotal == len(metadata)` is preserved |
| ImageIndex.AddExtendsPathListing | main.py:174-176 | After an add, the path listing is the old listing followed by the stored path |
| ImageIndex.AddSamePathTwice | main.py:153-159 | Adding the same named image again reports it as already indexed, with the current size, and changes nothing |
| ImageIndex.AnonymousUploadsAccumulate | main.py:153-176 | With no path or an empty one, the duplicate check is skipped; with working remote calls, every upload adds a record whose path is `"uploaded"` |
| ImageIndex.AddKeepsNamedPathsUnique | main.py:153-176 | An add never introduces a second record with the same path, except the anonymous path |
| ImageIndex.RunAddsKeepsInvariants | main.py:147-186 | From a consistent state, any sequence of adds keeps `ntotal == len(metadata)` and named paths unique, whatever each request's remote calls answer |
| ImageIndex.Similarity | main.py:214-218 | For distance >= 0, `100 / (1 + d)` lies in (0, 100] and equals 100 exactly when d = 0 |
| ImageIndex.SimilarityDecreases | main.py:214-218 | A larger distance gives a strictly smaller similarity |
| ImageIndex.JoinFrom | main.py:216-227 | The join fails with a missing key exactly when some neighbour with a record lacks a key. Every result is the neighbour at list position rank - 1, whose position is within the metadata; it carries that record's path and description, its distance and `100/(1+d)` |
| ImageIndex.JoinRanksIncrease | main.py:216-221 | Results keep the neighbours' order: ranks strictly increase |
| ImageIndex.JoinIsComplete | main.py:216-217 | Every neighbour whose position has a record is reported, under rank = its list position + 1 |
| ImageIndex.JoinOfConsistentIndexKeepsAll | main.py:217 | When every neighbour's position has a record, none is skipped |
| ImageIndex.Ranked | main.py:213-227 | The join succeeds exactly when every neighbour with a record has both keys. Joined results are ordered by rank and by non-decreasing distance, with ranks in 1..k, non-negative distances and `100/(1+d)` similarities |
| ImageIndex.HitsFollowNeighbours | main.py:209-221 | Results taken from a distance-sorted neighbour list are at most as many as the neighbours and are nearest first |
| ImageIndex.SearchSimilarImages | main.py:189-234 | An absent or empty index fails with "index is empty". The search succeeds exactly when the index holds a vector, both remote calls succeed with a vector of the index's dimension, and every neighbour found that has a record has both keys. A success echoes the query description and returns at most `top_k` and at most `ntotal` results, ranked from 1 up to `min(top_k, ntotal)`, nearest first, scored `100/(1+d)` |
| ImageIndex.Neighbours | main.py:209-211 | The search asks FAISS for `min(top_k, ntotal)` neighbours, sorted by distance |
| ImageIndex.SearchJoinsNeighbours | main.py:209-227 | A successful search is the join of FAISS's `min(top_k, ntotal)` neighbours of `embed(describe(image))` against the metadata |
| ImageIndex.SearchOfConsistentIndexSucceeds | main.py:189-234 | On a non-empty consistent index whose records all have both keys, a search with working remote calls of the right dimension succeeds |
| ImageIndex.SearchOfConsistentIndexReturnsAll | main.py:209-227 | On a consistent index a successful search (see the previous row for when it succeeds) returns exactly `min(top_k, len(metadata))` results, ranked 1, 2, 3, …; each carries the path, description and distance of its own neighbour |
| ImageIndex.JoinAllOfConsistentIndex | main.py:216-227 | If every position has a record, the k-th result is the (k+1)-th neighbour's record, with rank k + 1 |
| ImageIndex.IndexStats | main.py:272-280 | `index_size` is `ntotal` when an index exists and 0 without one, `metadata_count` is `len(metadata)`, the dimension is 1536, and on a consistent state the two counts agree |
| ImageIndex.StatsAfterAdd | main.py:183 | The `index_size` an add reports is what the statistics show next; it grew by one exactly when the image was added |
| ImageIndex.Startup | main.py:42-58 | With both files readable, the loaded index and metadata are used as they are; otherwise the state is a fresh empty index of dimension 1536 with no metadata |
| ImageIndex.Shutdown | main.py:62-70 | The state is saved exactly when an index exists and `ntotal > 0` |
| ImageIndex.RestartRestoresState | main.py:42-67 | Saving at shutdown and loading at the next start-up restores the same index and metadata |
| Text.Lower | yolo_faking/fake_yolo_detection.py:67 | Lower-casing keeps the length |
| Text.LowerKeepsLowerCase | yolo_faking/fake_yolo_detection.py:67 | A name without capitals is its own lower case |
| Text.SortedSet | object_permanence.py:138 | `sorted(set)` lists each member exactly once, in strictly ascending order |
| Text.Sort | object_permanence.py:92 | `list.sort()` is an ascending permutation of its input |
| Text.DecimalRoundTrip | yolo_faking/fake_yolo_detection.py:404 | Reading back the digits `str(counter)` writes gives the counter |
| Text.DecimalInjective | yolo_faking/fake_yolo_detection.py:404 | Different counters are written differently |
| Text.Suffix | object_permanence.py:85 | `Path.suffix` is empty or starts with a dot |
| Text.JoinPath | yolo_faking/fake_yolo_detection.py:404 | Appending a file name without `/` to a directory prefix gives a path whose parent prefix and name are those two again |
| Text.PathParts | yolo_faking/fake_yolo_detection.py:392-395 | The parent prefix, stem and suffix of a path put back together give the path |
| FoodMapper.Measure | yolo_faking/fake_yolo_detection.py:56-65 | The frame area the area rules divide by is positive |
| FoodMapper.Fallback | yolo_faking/fake_yolo_detection.py:110-130 | The position-only rules yield nothing or one of the four `CLASS_COLORS` classes |
| FoodMapper.MapDetection | yolo_faking/fake_yolo_detection.py:38-132 | The result is None or a key of `CLASS_COLORS`; `person` and `hand`, in any letter case, give None; `sandwich`, `hot dog` and `pizza` give `burger` whatever the box and confidence |
| FoodMapper.FoodOrBowlIsAlwaysMapped | yolo_faking/fake_yolo_detection.py:75-106 | A `food` or `bowl` detection always maps to `burger`, `sauce` or `fries`, never to `cucumbers` or None |
| FoodMapper.LowConfidenceIsIgnored | yolo_faking/fake_yolo_detection.py:108-132 | Confidence matters only through the `> 0.5` fallback: any two confidences of at most 0.5 give the same result |
| FoodMapper.FallbackNeedsConfidence | yolo_faking/fake_yolo_detection.py:110-130 | A result that differs from the one at confidence 0 comes from the position-only fallback, and only with a confidence above 0.5 |
| FoodMapper.FallbackExample | yolo_faking/fake_yolo_detection.py:108-115 | A `cell phone` in the centre of a 576x1024 frame, covering a fifth of it, maps to `burger` at confidence 0.9 and to None at 0.4 |
| FrameOverlay.Label | yolo_faking/fake_yolo_detection.py:209-224 | Each detection of the frame, in order, is mapped by the mapper, and its food class is None or a key of `CLASS_COLORS` |
| FrameOverlay.Update | yolo_faking/fake_yolo_detection.py:226-232 | One detection changes at most its own class's entry. That entry becomes the more confident of the old entry and the detection; the old entry stays on a tie |
| FrameOverlay.BestDetections | yolo_faking/fake_yolo_detection.py:226-232 | `best_detections` has exactly the food classes some detection maps to; for each it keeps the most confident detection, the earliest one on ties |
| FrameOverlay.UpdateKeepsFirstBest | yolo_faking/fake_yolo_detection.py:230-232 | One step of the loop, with its strict `>`, keeps the "first most confident per class" invariant |
| FrameOverlay.Truncate | yolo_faking/fake_yolo_detection.py:281-282 | `int()` of a float truncates toward zero |
| FrameOverlay.FrameTime | yolo_faking/fake_yolo_detection.py:188-191 | `current_time` is non-negative and times `fps` gives the frame count back; it is in the first fries window exactly when `4 * frame_count <= 3 * fps` |
| FrameOverlay.BurgerBox | yolo_faking/fake_yolo_detection.py:278-283 | The hard-coded burger box's corners lie within one pixel below 20 % and 80 % of the width and 25 % and 75 % of the height |
| FrameOverlay.FriesBox | yolo_faking/fake_yolo_detection.py:285-312 | The fries box's corners lie within the jitter range, plus truncation, of 38 % to 80 % of the width in the first window and 50 % to 90 % in the second, and of 15 % to 35 % of the height in both |
| FrameOverlay.HardcodedBoxes | yolo_faking/fake_yolo_detection.py:276-339 | A burger box is added exactly when no burger was kept. A fries box is added exactly when t is in [0, 0.75] or [2.425, 5.110]. Non-fries boxes get confidence 0.75 and the fries box gets a confidence in [0.8, 0.9]. No class appears twice, and every class has a colour. The burger box is `BurgerBox` of the frame size, and the fries box is `FriesBox` for that time and jitter |
| FrameOverlay.AnnotateFrame | yolo_faking/fake_yolo_detection.py:188-339 | The kept boxes are exactly the mapped food classes, each with its first most confident detection. The hard-coded boxes are those for `current_time = frame_count / fps`, with the burger box added only when no burger was kept. Every class drawn, kept or hard-coded, has a colour in `CLASS_COLORS` |
| FrameOverlay.EveryFrameShowsOneBurger | yolo_faking/fake_yolo_detection.py:278-283 | A frame shows the kept burger detection or the hard-coded burger box, never both and never neither |
| OutputName.Numbered | yolo_faking/fake_yolo_detection.py:404 | The numbered path is in the same directory as the base path, and its name is the stem, `_`, the counter and the suffix |
| OutputName.NumberedInjective | yolo_faking/fake_yolo_detection.py:404 | Different counters give different `stem_n.suffix` paths |
| OutputName.FewNumberedNamesExist | yolo_faking/fake_yolo_detection.py:402-407 | Only as many numbered paths can exist as there are existing files, so the counter search ends |
| OutputName.NextOutputFilename | yolo_faking/fake_yolo_detection.py:385-407 | The result never names an existing file. It is the base path when that is free, and otherwise `stem_n.suffix` in the same directory for the smallest n >= 1 that is free |
| ObjectCounts.CountNames | object_permanence.py:34-44 | Each class is counted once per box with that name; classes with no box are absent |
| ObjectCounts.DetectObjects | object_permanence.py:17-56 | Any error gives the empty dictionary. Otherwise each class maps to the number of boxes, over all results, with that name (at least 1), and only such classes appear |
| ObjectCounts.DetectObjectsExample | object_permanence.py:36-53 | Results with boxes `cup, fork`, then none, then `cup` count two cups and one fork |
| ObjectCounts.ImageNames | object_permanence.py:81-86 | A name is selected exactly when some listed entry is a file whose lower-cased suffix is an image extension, and it is selected once for each such entry |
| ObjectCounts.SelectImages | object_permanence.py:74-92 | A missing path and an empty selection give False. A path that cannot be listed raises. Otherwise the files are the selected names, each once per image entry, sorted ascending, and there is at least one |
| ObjectCounts.UpperCaseExtensionIsImage | object_permanence.py:85 | `a.JPG` is selected as an image when it is a file, and not when it is a directory |
| ObjectCounts.Categories | object_permanence.py:134-135 | The category set is the union of the keys of all per-image counts |
| ObjectCounts.Header | object_permanence.py:145 | The header is `image` followed by every category exactly once, in strictly ascending order |
| ObjectCounts.HeaderDistinctUnlessImageClass | object_permanence.py:138-145 | The header repeats a field exactly when some class is itself named `image` |
| ObjectCounts.CellFor | object_permanence.py:130-131 | A field's value is `result_row.get(field, 0)`, where `result_row` is `{"image": name}` updated with the counts |
| ObjectCounts.Row | object_permanence.py:153-155 | A row has one cell per header field |
| ObjectCounts.BuildTable | object_permanence.py:140-156 | One row per image, in processing order, each with exactly the header's fields. The first cell is the file name unless a class `image` was counted. Every class column other than `image` holds that image's count, or 0 when it had none |
| ObjectCounts.ImageFieldsHoldNameOrCount | object_permanence.py:130-155 | Every field named `image`, the first one or a class column called `image`, holds the image's count of class `image`, or its file name when it had none of that class |
| ObjectCounts.ImageClassOverwritesName | object_permanence.py:130-131 | A detected class named `image` replaces the file name in the row |
| ObjectCounts.CountAll | object_permanence.py:115-132 | The i-th counts are those detected in the i-th processed file |
| ObjectCounts.ProcessImages | object_permanence.py:59-169 | Returns True exactly when the path lists as a directory, the selection is non-empty, the model loads and the CSV is written. A selection failure is reported as such. The table written is built from the sorted files and their counts |
| ObjectCounts.ProcessImagesTable | object_permanence.py:115-156 | When the selection is non-empty, the model loads and the CSV can be written, `process_images` succeeds. The written table has one row per processed file, in ascending order, each named after its file unless a class `image` was detected in it, and one column per class detected in any image |
| ObjectCounts.ColumnsAreCountedClasses | object_permanence.py:134-145 | A class is a column exactly when some processed image had a box of it |
| ObjectCounts.CategoriesOfCounts | object_permanence.py:112-135 | A class is a category exactly when some image's detection reports it |

## Left out

- The OpenAI vision and embedding calls (main.py:76-144) are the parameters `describe` and `embed`. These cover the prompt file, the PIL re-encoding and the base64 URL. A raised call is `None`.
- FAISS internals, `faiss.read_index`/`write_index` and `pickle` are abstract. Start-up receives whether both files exist and the pair read from them, or `None` when a read raised. Shutdown returns the snapshot it would write. A write that fails half-way is not modelled.
- Every floating-point quantity is an exact real: embedding vectors and distances, similarities, box coordinates and the area and position ratios of the food mapper, confidences, the jitter offsets and `current_time`. The model has no float32 or float64 rounding, no inf or NaN, and no `round(similarity, 2)`.
- The FastAPI routes, the async plumbing and `/describe-image` are not modelled. Only the values that `get_index_stats` returns are.
- ImageIndex.SearchSimilarImages: requires `top_k >= 1`. The route always passes 5. With `top_k <= 0`, FAISS itself rejects the request, and that library-level error is not modelled.
- FoodMapper.MapDetection: requires positive frame dimensions. With a 0 width or height the source divides numpy float32 box coordinates by zero, which yields inf or nan with a warning rather than an exception, and the rules then compare those values. `Label`, `AnnotateFrame`, `FoodOrBowlIsAlwaysMapped`, `LowConfidenceIsIgnored` and `FallbackNeedsConfidence` carry the same requirement.
- FrameOverlay.HardcodedBoxes: the four jitter offsets and the fries confidence are inputs bounded by the ranges `random.uniform` draws from. The seeded random sequence itself is not modelled.
- Video capture, YOLO inference on frames, drawing rectangles and labels, `class_tracker` and progress printing in `process_video_with_yolo` are not modelled.
- FrameOverlay.FrameTime: requires `fps > 0`. A video that reports 0 frames per second makes the source divide by zero; `AnnotateFrame` and `EveryFrameShowsOneBurger` carry the same requirement.
- Lower-casing covers ASCII letters only. Python's full Unicode `str.lower()` is not modelled.
- Paths split at the last `/` and follow the `pathlib` suffix rule. `pathlib`'s normalisation is not modelled: repeated or trailing slashes and `.` components.
- The file system of `get_next_output_filename` is a set of existing path strings, so symbolic links and races are not modelled.
- In `object_permanence.py`, several steps are left out: creating the output directory, saving annotated copies, passing full paths rather than names to the model, and printing. A failure inside `detect_objects_in_image` is the `Raised` inference. The input path is `Missing`, `Unlistable` (it exists, but `iterdir()` raises, as for a plain file or an unreadable directory) or a `Listing` of entries. The `Unlistable` case ends in the `ListingRaised` error: the exception escapes `process_images`, which does not return False then.
- The argparse `main` functions, `to_gif.py`, `copy_android/` and `test_video_analysis.py` are not modelled: they are I/O wrappers and HTTP clients.

=== FILE: flat_index.dfy ===
/** An exact L2 vector index, as the `faiss.IndexFlatL2` the service keeps:
    an append-only list of fixed-dimension vectors searched by brute force,
    nearest first by squared Euclidean distance. Floats are modelled as exact
    reals. */
module FlatIndex {

  type Vector = seq<real>

  /** The stored vectors, all of length `dim`. */
  datatype Flat = Flat(dim: nat, vectors: seq<Vector>) {

    predicate WellFormed() {
      forall i :: 0 <= i < |vectors| ==> |vectors[i]| == dim
    }

    /** FAISS's `ntotal`. */
    function NTotal(): nat {
      |vectors|
    }
  }

  function Empty(dim: nat): (f: Flat)
    ensures f.WellFormed() && f.NTotal() == 0 && f.dim == dim
  {
    Flat(dim, [])
  }

  /** `index.add(v)` for a vector whose length the caller has checked. */
  function Append(f: Flat, v: Vector): (g: Flat)
    requires f.WellFormed() && |v| == f.dim
    ensures g.WellFormed() && g.dim == f.dim
    ensures g.NTotal() == f.NTotal() + 1
    ensures g.vectors[..f.NTotal()] == f.vectors && g.vectors[f.NTotal()] == v
  {
    Flat(f.dim, f.vectors + [v])
  }

  /** Squared Euclidean distance, the score `IndexFlatL2` reports. */
  function SquaredL2(a: Vector, b: Vector): (d: real)
    requires |a| == |b|
    ensures d >= 0.0
  {
    if a == [] then 0.0 else (a[0] - b[0]) * (a[0] - b[0]) + SquaredL2(a[1..], b[1..])
  }

  /** A vector is at distance zero from itself. */
  lemma {:induction false} SquaredL2ToSelf(a: Vector)
    ensures SquaredL2(a, a) == 0.0
  {
    if a != [] {
      SquaredL2ToSelf(a[1..]);
    }
  }

  /** One search answer: a stored position and its distance to the query. */
  datatype Neighbour = Neighbour(position: nat, distance: real)

  /** Nearer first; equally near vectors by ascending position. */
  predicate Before(a: Neighbour, b: Neighbour) {
    a.distance < b.distance || (a.distance == b.distance && a.position <= b.position)
  }

  predicate Sorted(s: seq<Neighbour>) {
    forall i, j :: 0 <= i < j < |s| ==> Before(s[i], s[j])
  }

  predicate DistinctPositions(s: seq<Neighbour>) {
    forall i, j :: 0 <= i < j < |s| ==> s[i].position != s[j].position
  }

  function Insert(x: Neighbour, s: seq<Neighbour>): (r: seq<Neighbour>)
    requires Sorted(s) && DistinctPositions(s)
    requires forall i :: 0 <= i < |s| ==> s[i].position != x.position
    ensures Sorted(r) && DistinctPositions(r)
    ensures multiset(r) == multiset(s) + multiset{x}
    ensures |r| == |s| + 1
    decreases |s|
  {
    if s == [] then [x]
    else if Before(x, s[0]) then
      PrependSorted(x, s);
      [x] + s
    else
      var tail := Insert(x, s[1..]);
      assert s == [s[0]] + s[1..];
      HeadPrecedesInsertion(x, s, tail);
      PrependSorted(s[0], tail);
      [s[0]] + tail
  }

  /** A neighbour that comes before everything in a sorted list can lead it. */
  lemma PrependSorted(h: Neighbour, t: seq<Neighbour>)
    requires Sorted(t) && DistinctPositions(t)
    requires t != [] ==> Before(h, t[0])
    requires forall i :: 0 <= i < |t| ==> t[i].position != h.position
    ensures Sorted([h] + t) && DistinctPositions([h] + t)
  {
    var r := [h] + t;
    forall i, j | 0 <= i < j < |r| ensures Before(r[i], r[j]) && r[i].position != r[j].position {
      if i == 0 {
        assert r[j] == t[j - 1];
        if j > 1 {
          assert Before(t[0], t[j - 1]);
        }
      } else {
        assert r[i] == t[i - 1] && r[j] == t[j - 1];
      }
    }
  }

  /** After `x` went into the tail, the head still comes first. */
  lemma HeadPrecedesInsertion(x: Neighbour, s: seq<Neighbour>, tail: seq<Neighbour>)
    requires s != [] && Sorted(s) && DistinctPositions(s) && !Before(x, s[0])
    requires forall i :: 0 <= i < |s| ==> s[i].position != x.position
    requires multiset(tail) == multiset(s[1..]) + multiset{x}
    ensures forall i :: 0 <= i < |tail| ==> Before(s[0], tail[i]) && s[0].position != tail[i].position
    ensures tail != [] ==> Before(s[0], tail[0])
  {
    forall i | 0 <= i < |tail| ensures Before(s[0], tail[i]) && s[0].position != tail[i].position {
      assert tail[i] in multiset(tail);
      if tail[i] != x {
        assert tail[i] in multiset(s[1..]);
        var j :| 0 <= j < |s[1..]| && s[1..][j] == tail[i];
        assert s[j + 1] == tail[i];
      }
    }
  }

  function Sort(s: seq<Neighbour>): (r: seq<Neighbour>)
    requires DistinctPositions(s)
    ensures Sorted(r) && DistinctPositions(r)
    ensures multiset(r) == multiset(s)
    ensures |r| == |s|
    decreases |s|
  {
    if s == [] then []
    else
      assert s == [s[0]] + s[1..];
      var rest := Sort(s[1..]);
      forall i | 0 <= i < |rest| ensures rest[i].position != s[0].position {
        assert rest[i] in multiset(s[1..]);
      }
      Insert(s[0], rest)
  }

  /** Every stored vector paired with its distance to the query, by position. */
  function Candidates(f: Flat, q: Vector): (c: seq<Neighbour>)
    requires f.WellFormed() && |q| == f.dim
    ensures |c| == f.NTotal()
    ensures forall i :: 0 <= i < |c| ==> c[i] == Neighbour(i, SquaredL2(f.vectors[i], q))
  {
    seq(f.NTotal(), i requires 0 <= i < f.NTotal() => Neighbour(i, SquaredL2(f.vectors[i], q)))
  }

  /** `index.search(q, k)` for `k <= ntotal`: the `k` stored vectors nearest
      to `q`, nearest first. */
  function Search(f: Flat, q: Vector, k: nat): (r: seq<Neighbour>)
    requires f.WellFormed() && |q| == f.dim && k <= f.NTotal()
    ensures |r| == k
    ensures Sorted(r) && DistinctPositions(r)
    ensures forall i :: 0 <= i < |r| ==>
      r[i].position < f.NTotal() && r[i].distance == SquaredL2(f.vectors[r[i].position], q)
    // every vector left out comes after every one returned: it is no nearer,
    // and when equally near it has the higher position
    ensures forall i, p :: 0 <= i < |r| && 0 <= p < f.NTotal() && !InResult(r, p) ==>
      Before(r[i], Neighbour(p, SquaredL2(f.vectors[p], q)))
  {
    var c := Candidates(f, q);
    var all := Sort(c);
    SortedCandidatesAreExact(f, q, c, all);
    PrefixIsNearest(f, q, c, all, k);
    all[..k]
  }

  lemma SortedCandidatesAreExact(f: Flat, q: Vector, c: seq<Neighbour>, all: seq<Neighbour>)
    requires f.WellFormed() && |q| == f.dim && c == Candidates(f, q)
    requires multiset(all) == multiset(c)
    ensures forall i :: 0 <= i < |all| ==>
      all[i].position < f.NTotal() && all[i].distance == SquaredL2(f.vectors[all[i].position], q)
  {
    forall i | 0 <= i < |all|
      ensures all[i].position < f.NTotal() && all[i].distance == SquaredL2(f.vectors[all[i].position], q)
    {
      assert all[i] in multiset(c);
    }
  }

  lemma PrefixIsNearest(f: Flat, q: Vector, c: seq<Neighbour>, all: seq<Neighbour>, k: nat)
    requires f.WellFormed() && |q| == f.dim && |c| == f.NTotal()
    requires forall p :: 0 <= p < |c| ==> c[p] == Neighbour(p, SquaredL2(f.vectors[p], q))
    requires multiset(all) == multiset(c) && Sorted(all) && k <= |all|
    ensures forall i, p :: 0 <= i < k && 0 <= p < f.NTotal() && !InResult(all[..k], p) ==>
      Before(all[i], Neighbour(p, SquaredL2(f.vectors[p], q)))
  {
    var r := all[..k];
    forall i, p | 0 <= i < k && 0 <= p < f.NTotal() && !InResult(r, p)
      ensures Before(all[i], Neighbour(p, SquaredL2(f.vectors[p], q)))
    {
      var j := Listed(all, c, p);
      assert k <= j by {
        assert forall m :: 0 <= m < k ==> r[m].position != p;
      }
      assert Before(all[i], all[j]);
    }
  }

  /** Where a candidate ended up in a permutation of the candidates. */
  lemma Listed(all: seq<Neighbour>, c: seq<Neighbour>, p: nat) returns (j: nat)
    requires multiset(all) == multiset(c) && p < |c|
    ensures j < |all| && all[j] == c[p]
  {
    assert c[p] in multiset(all);
    j :| 0 <= j < |all| && all[j] == c[p];
  }

  predicate InResult(r: seq<Neighbour>, p: nat) {
    exists i :: 0 <= i < |r| && r[i].position == p
  }
}

=== FILE: food_mapper.dfy ===
/** `FoodClassMapper` of `yolo_faking/fake_yolo_detection.py`: an ordered
    table of rules that turns a YOLO detection (class name, confidence,
    bounding box) into one of four food classes, or into nothing. Box
    coordinates and ratios are exact reals. */
module FoodMapper {
  import opened Wrappers
  import opened Text

  /** An OpenCV colour, blue-green-red. */
  datatype Bgr = Bgr(b: nat, g: nat, r: nat)

  /** `CLASS_COLORS`: the four food classes and the colour each is drawn in. */
  const ClassColors: map<string, Bgr> := map[
    "burger" := Bgr(0, 255, 0),
    "fries" := Bgr(255, 165, 0),
    "sauce" := Bgr(0, 0, 255),
    "cucumbers" := Bgr(255, 255, 0)
  ]

  /** `(x1, y1, x2, y2)` in pixels. */
  datatype Box = Box(x1: real, y1: real, x2: real, y2: real)

  /** A mapper for frames of the given size in pixels. */
  datatype Mapper = Mapper(frameWidth: int, frameHeight: int)

  /** The box measures the rules compare, relative to the frame. */
  datatype Measures = Measures(
    centerX: real,      // box centre x / frame width
    centerY: real,      // box centre y / frame height
    width: real,
    height: real,
    area: real,         // box area in square pixels
    frameArea: real)    // frame width * frame height

  function Measure(m: Mapper, box: Box): (g: Measures)
    requires m.frameWidth > 0 && m.frameHeight > 0
    ensures g.frameArea > 0.0
  {
    var w := m.frameWidth as real;
    var h := m.frameHeight as real;
    var bw := box.x2 - box.x1;
    var bh := box.y2 - box.y1;
    Measures((box.x1 + box.x2) / 2.0 / w, (box.y1 + box.y2) / 2.0 / h, bw, bh, bw * bh, w * h)
  }

  const Excluded: seq<string> := ["person", "hand"]
  const SandwichLike: seq<string> := ["sandwich", "hot dog", "pizza"]
  const SauceContainers: seq<string> := ["cup", "bottle", "bowl", "container"]
  const FriesNames: seq<string> := ["fork", "knife", "spoon", "food", "bowl"]
  const Vegetables: seq<string> := ["carrot", "vegetable", "onion", "lettuce"]
  const PickleContainers: seq<string> := ["bowl", "container", "cup"]

  predicate InCentre(g: Measures) {
    0.3 < g.centerX < 0.7 && 0.25 < g.centerY < 0.75
  }

  predicate LowerLeft(g: Measures) {
    g.centerX < 0.25 && g.centerY > 0.6
  }

  /** Upper right, medium sized and clearly wider than tall. */
  predicate FriesShape(g: Measures)
    requires g.frameArea > 0.0
  {
    && g.centerX > 0.65
    && g.centerY < 0.5
    && 0.02 < g.area / g.frameArea < 0.15
    && g.width > g.height * 1.2
  }

  predicate SmallTopRight(g: Measures) {
    g.centerX > 0.75 && g.centerY < 0.3 && g.area < 0.06 * g.frameArea
  }

  /** Rule 1: a burger by name, or a large `food` box in the centre. */
  predicate BurgerRule(name: string, g: Measures) {
    name in SandwichLike || (name == "food" && InCentre(g) && g.area > 0.15 * g.frameArea)
  }

  /** Rule 2: a container, or any small box, in the lower left. */
  predicate SauceRule(name: string, g: Measures) {
    (name in SauceContainers && LowerLeft(g)) || (g.area < 0.04 * g.frameArea && LowerLeft(g))
  }

  /** Rule 3: cutlery and food by name, or the fries shape. */
  predicate FriesRule(name: string, g: Measures)
    requires g.frameArea > 0.0
  {
    name in FriesNames || FriesShape(g)
  }

  /** Rule 4: vegetables by name, a container in the top-right corner, or
      any small box there. */
  predicate CucumbersRule(name: string, g: Measures) {
    || name in Vegetables
    || (name in PickleContainers && g.centerX > 0.75 && g.centerY < 0.25)
    || SmallTopRight(g)
  }

  /** The position-only fallback, consulted only for confident detections. */
  function Fallback(g: Measures): (r: Option<string>)
    requires g.frameArea > 0.0
    ensures r.None? || r.value in ClassColors
  {
    if InCentre(g) && 0.1 < g.area / g.frameArea < 0.3 then Some("burger")
    else if FriesShape(g) then Some("fries")
    else if SmallTopRight(g) then Some("cucumbers")
    else if LowerLeft(g) && g.area < 0.04 * g.frameArea then Some("sauce")
    else None
  }

  /** `map_detection_to_food_class(class_name, confidence, bbox_xyxy)`. */
  function MapDetection(m: Mapper, className: string, confidence: real, box: Box): (r: Option<string>)
    requires m.frameWidth > 0 && m.frameHeight > 0
    // the result can always be looked up in CLASS_COLORS
    ensures r.None? || r.value in ClassColors
    ensures Lower(className) in Excluded ==> r.None?
    ensures Lower(className) in SandwichLike ==> r == Some("burger")
  {
    var g := Measure(m, box);
    var name := Lower(className);
    if name in Excluded then None
    else if BurgerRule(name, g) then Some("burger")
    else if SauceRule(name, g) then Some("sauce")
    else if FriesRule(name, g) then Some("fries")
    else if CucumbersRule(name, g) then Some("cucumbers")
    else if confidence > 0.5 && name !in Excluded then Fallback(g)
    else None
  }

  /** A `food` or `bowl` detection is always drawn, and never as cucumbers:
      if the burger and sauce rules miss, the fries name list catches it. */
  lemma FoodOrBowlIsAlwaysMapped(m: Mapper, className: string, confidence: real, box: Box)
    requires m.frameWidth > 0 && m.frameHeight > 0
    requires Lower(className) == "food" || Lower(className) == "bowl"
    ensures MapDetection(m, className, confidence, box) in {Some("burger"), Some("sauce"), Some("fries")}
  {
    assert Lower(className) in FriesNames;
  }

  /** Below the 0.5 threshold confidence plays no part: two detections that
      differ only in a confidence of at most 0.5 map alike. */
  lemma LowConfidenceIsIgnored(m: Mapper, className: string, c1: real, c2: real, box: Box)
    requires m.frameWidth > 0 && m.frameHeight > 0
    requires c1 <= 0.5 && c2 <= 0.5
    ensures MapDetection(m, className, c1, box) == MapDetection(m, className, c2, box)
  {
  }

  /** Conversely, a result that changes with confidence came from the
      position-only fallback, which needs a confidence above 0.5. */
  lemma FallbackNeedsConfidence(m: Mapper, className: string, c: real, box: Box)
    requires m.frameWidth > 0 && m.frameHeight > 0
    requires MapDetection(m, className, c, box) != MapDetection(m, className, 0.0, box)
    ensures c > 0.5
    ensures MapDetection(m, className, c, box) == Fallback(Measure(m, box))
  {
  }

  /** An unlisted class in the middle of a 576x1024 frame, covering a fifth
      of it, is a burger when confident and nothing when not. */
  lemma FallbackExample()
    ensures MapDetection(Mapper(576, 1024), "cell phone", 0.9, Box(188.0, 283.0, 388.0, 883.0)) == Some("burger")
    ensures MapDetection(Mapper(576, 1024), "cell phone", 0.4, Box(188.0, 283.0, 388.0, 883.0)) == None
  {
    ExampleMissesNamedRules();
  }

  lemma ExampleMissesNamedRules()
    ensures var g := Measure(Mapper(576, 1024), Box(188.0, 283.0, 388.0, 883.0));
      && Lower("cell phone") == "cell phone"
      && "cell phone" !in Excluded
      && !BurgerRule("cell phone", g) && !SauceRule("cell phone", g)
      && !FriesRule("cell phone", g) && !CucumbersRule("cell phone", g)
      && Fallback(g) == Some("burger")
  {
    ExampleMeasures();
    CellPhoneIsLowerCase();
    CellPhoneIsUnlisted();
  }

  /** "cell phone", ten characters long, matches no name in the rules'
      lists. */
  lemma CellPhoneIsUnlisted()
    ensures "cell phone" !in Excluded && "cell phone" !in SandwichLike && "cell phone" != "food"
    ensures "cell phone" !in SauceContainers && "cell phone" !in FriesNames
    ensures "cell phone" !in Vegetables && "cell phone" !in PickleContainers
  {
    assert |"cell phone"| == 10;
    assert forall i :: 0 <= i < |Excluded| ==> |Excluded[i]| < 10;
    assert forall i :: 0 <= i < |SandwichLike| ==> |SandwichLike[i]| < 10;
    assert forall i :: 0 <= i < |SauceContainers| ==> |SauceContainers[i]| < 10;
    assert forall i :: 0 <= i < |FriesNames| ==> |FriesNames[i]| < 10;
    assert forall i :: 0 <= i < |Vegetables| ==> |Vegetables[i]| < 10;
    assert forall i :: 0 <= i < |PickleContainers| ==> |PickleContainers[i]| < 10;
  }

  lemma CellPhoneIsLowerCase()
    ensures Lower("cell phone") == "cell phone"
  {
    var s := "cell phone";
    assert forall i :: 0 <= i < |s| ==> s[i] in "abcdefghijklmnopqrstuvwxyz ";
    LowerKeepsLowerCase(s);
  }

  lemma ExampleMeasures()
    ensures var g := Measure(Mapper(576, 1024), Box(188.0, 283.0, 388.0, 883.0));
      && !LowerLeft(g) && !FriesShape(g) && !SmallTopRight(g) && InCentre(g)
      && 0.1 < g.area / g.frameArea < 0.3
  {
    var g := Measure(Mapper(576, 1024), Box(188.0, 283.0, 388.0, 883.0));
    assert g.centerX == 0.5 && g.centerY == 583.0 / 1024.0;
    assert g.area == 120000.0 && g.frameArea == 589824.0;
  }
}

=== FILE: frame_overlay.dfy ===
/** The per-frame decisions of `process_video_with_yolo` in
    `yolo_faking/fake_yolo_detection.py`: keep the most confident detection
    of each food class, then add the hard-coded burger and fries boxes. The
    YOLO model, video capture and drawing are left to the caller; the random
    jitter and the random fries confidence are inputs within the ranges
    `random.uniform` draws from. */
module FrameOverlay {
  import opened Wrappers
  import opened FoodMapper

  /** One YOLO box of a frame, with the class name looked up. */
  datatype Detection = Detection(className: string, confidence: real, box: Box)

  /** An entry of `best_detections`. */
  datatype Kept = Kept(box: Box, confidence: real)

  /** A detection after mapping: its food class, if any. */
  datatype Labelled = Labelled(food: Option<string>, box: Box, confidence: real)

  /** Runs the mapper over the frame's detections, in order. */
  function Label(m: Mapper, dets: seq<Detection>): (ls: seq<Labelled>)
    requires m.frameWidth > 0 && m.frameHeight > 0
    ensures |ls| == |dets|
    ensures forall i :: 0 <= i < |ls| ==>
      ls[i] == Labelled(MapDetection(m, dets[i].className, dets[i].confidence, dets[i].box), dets[i].box, dets[i].confidence)
    ensures forall i :: 0 <= i < |ls| ==> ls[i].food.None? || ls[i].food.value in ClassColors
  {
    seq(|dets|, i requires 0 <= i < |dets| =>
      Labelled(MapDetection(m, dets[i].className, dets[i].confidence, dets[i].box), dets[i].box, dets[i].confidence))
  }

  /** `i` is the first detection of class `c` with the highest confidence. */
  ghost predicate IsFirstBest(ls: seq<Labelled>, c: string, i: int) {
    && 0 <= i < |ls|
    && ls[i].food == Some(c)
    && (forall j :: 0 <= j < |ls| && ls[j].food == Some(c) ==> ls[j].confidence <= ls[i].confidence)
    && (forall j :: 0 <= j < i && ls[j].food == Some(c) ==> ls[j].confidence < ls[i].confidence)
  }

  /** What `best_detections` holds after the loop over `ls`: exactly the
      classes some detection maps to, each with the first most confident
      detection of that class. */
  ghost predicate KeepsFirstBest(ls: seq<Labelled>, best: map<string, Kept>) {
    && (forall c :: c in best <==> exists i :: 0 <= i < |ls| && ls[i].food == Some(c))
    && (forall c :: c in best ==> exists i :: IsFirstBest(ls, c, i) && best[c] == Kept(ls[i].box, ls[i].confidence))
  }

  /** One pass of the loop body: replace the kept detection of the class
      only when strictly more confident. */
  function Update(best: map<string, Kept>, d: Labelled): (next: map<string, Kept>)
    // only the detection's own class can change
    ensures forall c :: c in next <==> c in best || d.food == Some(c)
    ensures forall c :: c in best && d.food != Some(c) ==> next[c] == best[c]
    // its entry becomes the more confident of the two, the earlier on a tie
    ensures d.food.Some? ==>
      var c := d.food.value;
      && next[c].confidence >= d.confidence
      && (c in best ==> next[c].confidence >= best[c].confidence)
      && (c in best && d.confidence <= best[c].confidence ==> next[c] == best[c])
      && (next[c] == Kept(d.box, d.confidence) || (c in best && next[c] == best[c]))
  {
    match d.food
    case None => best
    case Some(c) =>
      if c !in best || d.confidence > best[c].confidence then best[c := Kept(d.box, d.confidence)]
      else best
  }

  /** The loop that fills `best_detections`. */
  function BestDetections(ls: seq<Labelled>): (best: map<string, Kept>)
    ensures KeepsFirstBest(ls, best)
    decreases |ls|
  {
    if ls == [] then map[]
    else
      var prev := BestDetections(ls[..|ls| - 1]);
      UpdateKeepsFirstBest(ls, prev);
      Update(prev, ls[|ls| - 1])
  }

  lemma UpdateKeepsFirstBest(ls: seq<Labelled>, prev: map<string, Kept>)
    requires ls != [] && KeepsFirstBest(ls[..|ls| - 1], prev)
    ensures KeepsFirstBest(ls, Update(prev, ls[|ls| - 1]))
  {
    var init := ls[..|ls| - 1];
    var d := ls[|ls| - 1];
    var next := Update(prev, d);
    assert forall i :: 0 <= i < |init| ==> ls[i] == init[i];
    forall c | c in next
      ensures exists i :: IsFirstBest(ls, c, i) && next[c] == Kept(ls[i].box, ls[i].confidence)
    {
      if d.food == Some(c) && (c !in prev || d.confidence > prev[c].confidence) {
        NewBest(ls, prev, c);
      } else {
        OldBest(ls, prev, c);
      }
    }
    forall c ensures c in next <==> exists i :: 0 <= i < |ls| && ls[i].food == Some(c) {
      if c in next && d.food != Some(c) {
        var i :| 0 <= i < |init| && init[i].food == Some(c);
        assert ls[i].food == Some(c);
      }
    }
  }

  lemma NewBest(ls: seq<Labelled>, prev: map<string, Kept>, c: string)
    requires ls != [] && KeepsFirstBest(ls[..|ls| - 1], prev)
    requires ls[|ls| - 1].food == Some(c)
    requires c !in prev || ls[|ls| - 1].confidence > prev[c].confidence
    ensures IsFirstBest(ls, c, |ls| - 1)
  {
    var init := ls[..|ls| - 1];
    assert forall i :: 0 <= i < |init| ==> ls[i] == init[i];
    if c in prev {
      var k :| IsFirstBest(init, c, k) && prev[c] == Kept(init[k].box, init[k].confidence);
    }
  }

  lemma OldBest(ls: seq<Labelled>, prev: map<string, Kept>, c: string)
    requires ls != [] && KeepsFirstBest(ls[..|ls| - 1], prev)
    requires c in Update(prev, ls[|ls| - 1])
    requires !(ls[|ls| - 1].food == Some(c) && (c !in prev || ls[|ls| - 1].confidence > prev[c].confidence))
    ensures c in prev && Update(prev, ls[|ls| - 1])[c] == prev[c]
    ensures exists i :: IsFirstBest(ls, c, i) && prev[c] == Kept(ls[i].box, ls[i].confidence)
  {
    assert c in prev;
    StillFirstBest(ls, prev, c);
  }

  /** A last detection that does not beat the kept one leaves it the first best. */
  lemma StillFirstBest(ls: seq<Labelled>, prev: map<string, Kept>, c: string)
    requires ls != [] && KeepsFirstBest(ls[..|ls| - 1], prev) && c in prev
    requires ls[|ls| - 1].food == Some(c) ==> ls[|ls| - 1].confidence <= prev[c].confidence
    ensures exists i :: IsFirstBest(ls, c, i) && prev[c] == Kept(ls[i].box, ls[i].confidence)
  {
    var init := ls[..|ls| - 1];
    assert forall i :: 0 <= i < |init| ==> ls[i] == init[i];
    var k :| IsFirstBest(init, c, k) && prev[c] == Kept(init[k].box, init[k].confidence);
    assert IsFirstBest(ls, c, k);
  }

  // ---------------------------------------------------------------------
  // Hard-coded boxes
  // ---------------------------------------------------------------------

  /** Integer pixel corners, as passed to `cv2.rectangle`. */
  datatype IntBox = IntBox(x1: int, y1: int, x2: int, y2: int)

  /** The four `random.uniform` offsets drawn for a fries box. */
  datatype Jitter = Jitter(dx1: real, dy1: real, dx2: real, dy2: real)

  predicate JitterInRange(j: Jitter) {
    -3.0 <= j.dx1 <= 3.0 && -2.0 <= j.dy1 <= 2.0 && -2.0 <= j.dx2 <= 2.0 && -2.0 <= j.dy2 <= 2.0
  }

  /** Python's `int()` on a float: truncation toward zero. */
  function Truncate(x: real): (n: int)
    ensures x >= 0.0 ==> n as real <= x < n as real + 1.0
    ensures x < 0.0 ==> n as real - 1.0 < x <= n as real
  {
    if x >= 0.0 then x.Floor else -((-x).Floor)
  }

  /** `current_time = frame_count / fps`: the time at which the frame is
      shown, so the first fries window covers the first three quarters of a
      second of frames. */
  function FrameTime(frameCount: nat, fps: int): (t: real)
    requires fps > 0
    ensures t >= 0.0 && t * fps as real == frameCount as real
    ensures InFirstFriesWindow(t) <==> 4 * frameCount <= 3 * fps
  {
    var t := frameCount as real / fps as real;
    assert t * fps as real == frameCount as real;
    t
  }

  /** The two intervals, in seconds, in which a fries box is always shown. */
  predicate InFirstFriesWindow(t: real) {
    0.0 <= t <= 0.75
  }

  predicate InSecondFriesWindow(t: real) {
    2.425 <= t <= 5.110
  }

  /** A box drawn on top of the detections, with the confidence in its label. */
  datatype Overlay = Overlay(className: string, box: IntBox, confidence: real)

  /** The centre of the frame: from a fifth to four fifths of the width and
      from a quarter to three quarters of the height, each corner truncated
      to a whole pixel. */
  function BurgerBox(width: nat, height: nat): (b: IntBox)
    ensures width as real * 0.2 - 1.0 < b.x1 as real <= width as real * 0.2
    ensures height as real * 0.25 - 1.0 < b.y1 as real <= height as real * 0.25
    ensures width as real * 0.8 - 1.0 < b.x2 as real <= width as real * 0.8
    ensures height as real * 0.75 - 1.0 < b.y2 as real <= height as real * 0.75
  {
    IntBox(Truncate(width as real * 0.2), Truncate(height as real * 0.25),
           Truncate(width as real * 0.8), Truncate(height as real * 0.75))
  }

  /** The fries box sits within a few pixels of its nominal corners: 38% to
      80% of the width in the first window, 50% to 90% in the second, and
      15% to 35% of the height in both. */
  function FriesBox(width: nat, height: nat, t: real, j: Jitter): (b: IntBox)
    requires InFirstFriesWindow(t) || InSecondFriesWindow(t)
    requires JitterInRange(j)
    ensures
      var left := if InFirstFriesWindow(t) then 0.38 else 0.50;
      var right := if InFirstFriesWindow(t) then 0.80 else 0.90;
      && width as real * left - 4.0 < b.x1 as real <= width as real * left + 3.0
      && width as real * right - 3.0 < b.x2 as real <= width as real * right + 2.0
      && height as real * 0.15 - 3.0 < b.y1 as real <= height as real * 0.15 + 2.0
      && height as real * 0.35 - 3.0 < b.y2 as real <= height as real * 0.35 + 2.0
  {
    var left := if InFirstFriesWindow(t) then 0.38 else 0.50;
    var right := if InFirstFriesWindow(t) then 0.80 else 0.90;
    IntBox(Truncate(width as real * left + j.dx1), Truncate(height as real * 0.15 + j.dy1),
           Truncate(width as real * right + j.dx2), Truncate(height as real * 0.35 + j.dy2))
  }

  /** `hardcoded_boxes` with their confidences, in insertion order: a burger
      box when no burger was kept, then a fries box inside the two windows. */
  function HardcodedBoxes(width: nat, height: nat, t: real, burgerKept: bool,
                          j: Jitter, friesConfidence: real): (r: seq<Overlay>)
    requires JitterInRange(j) && 0.8 <= friesConfidence <= 0.9
    ensures forall k :: 0 <= k < |r| ==> r[k].className in ClassColors
    ensures (exists k :: 0 <= k < |r| && r[k].className == "burger") <==> !burgerKept
    ensures (exists k :: 0 <= k < |r| && r[k].className == "fries") <==> InFirstFriesWindow(t) || InSecondFriesWindow(t)
    ensures forall k :: 0 <= k < |r| && r[k].className != "fries" ==> r[k].confidence == 0.75
    ensures forall k :: 0 <= k < |r| && r[k].className == "fries" ==> 0.8 <= r[k].confidence <= 0.9
    ensures forall k, l :: 0 <= k < l < |r| ==> r[k].className != r[l].className
    // the boxes sit where the source places them
    ensures forall k :: 0 <= k < |r| && r[k].className == "burger" ==> r[k].box == BurgerBox(width, height)
    ensures forall k :: 0 <= k < |r| && r[k].className == "fries" ==>
      && (InFirstFriesWindow(t) || InSecondFriesWindow(t))
      && r[k].box == FriesBox(width, height, t, j)
  {
    var burger := if burgerKept then [] else [Overlay("burger", BurgerBox(width, height), 0.75)];
    var fries :=
      if InFirstFriesWindow(t) || InSecondFriesWindow(t)
      then [Overlay("fries", FriesBox(width, height, t, j), friesConfidence)]
      else [];
    var r := burger + fries;
    assert "burger" != "fries";
    assert !burgerKept ==> r[0].className == "burger";
    assert fries != [] ==> r[|r| - 1].className == "fries";
    r
  }

  /** Everything drawn on one frame. */
  datatype FrameBoxes = FrameBoxes(kept: map<string, Kept>, hardcoded: seq<Overlay>)

  /** One iteration of the frame loop, without the drawing. */
  function AnnotateFrame(m: Mapper, dets: seq<Detection>, frameCount: nat, fps: int,
                         j: Jitter, friesConfidence: real): (f: FrameBoxes)
    requires m.frameWidth > 0 && m.frameHeight > 0 && fps > 0
    requires JitterInRange(j) && 0.8 <= friesConfidence <= 0.9
    // the colour lookup for drawing never fails
    ensures forall c :: c in f.kept ==> c in ClassColors
    ensures forall k :: 0 <= k < |f.hardcoded| ==> f.hardcoded[k].className in ClassColors
    // the kept boxes are the first most confident detection of each class
    ensures KeepsFirstBest(Label(m, dets), f.kept)
    // the hard-coded boxes are those for the frame's time, frame_count / fps
    ensures f.hardcoded == HardcodedBoxes(m.frameWidth, m.frameHeight, FrameTime(frameCount, fps),
                                          "burger" in f.kept, j, friesConfidence)
  {
    var best := BestDetections(Label(m, dets));
    var t := FrameTime(frameCount, fps);
    FrameBoxes(best, HardcodedBoxes(m.frameWidth, m.frameHeight, t, "burger" in best, j, friesConfidence))
  }

  /** Every frame shows exactly one burger box: the kept detection, or else
      the hard-coded one. */
  lemma EveryFrameShowsOneBurger(m: Mapper, dets: seq<Detection>, frameCount: nat, fps: int,
                                 j: Jitter, friesConfidence: real)
    requires m.frameWidth > 0 && m.frameHeight > 0 && fps > 0
    requires JitterInRange(j) && 0.8 <= friesConfidence <= 0.9
    ensures var f := AnnotateFrame(m, dets, frameCount, fps, j, friesConfidence);
      "burger" in f.kept <==> !(exists k :: 0 <= k < |f.hardcoded| && f.hardcoded[k].className == "burger")
  {
  }
}

=== FILE: image_index.dfy ===
/** The image-similarity service of `main.py`: a FAISS L2 index plus a
    parallel list of metadata records, grown by `add_image_to_index`, queried
    by `search_similar_images`, summarised by `get_index_stats`, and loaded
    and saved around the process lifetime by `lifespan`.

    The vision model and the embedding model are remote calls; here they are
    the parameters `describe` and `embed`, which return `None` when the call
    raises. The two module-level globals become one `State` value that every
    operation takes and, where it mutates, returns. */
module ImageIndex {
  import opened Wrappers
  import opened FlatIndex

  type Bytes = seq<bv8>

  /** A FAISS index as it can exist: every vector has the index's dimension. */
  type Store = f: Flat | f.WellFormed() witness Flat(0, [])

  /** `EMBEDDING_DIM`, the dimension of text-embedding-3-small. */
  const EmbeddingDim: nat := 1536

  /** The path recorded for an upload that gives none. */
  const AnonymousPath: string := "uploaded"

  /** One element of `faiss_metadata`. The program writes both keys, but a
      list restored from disk is only known to hold dictionaries, so either
      key may be absent. */
  datatype Record = Record(imagePath: Option<string>, description: Option<string>)

  /** The globals `faiss_index` (None before start-up) and `faiss_metadata`. */
  datatype State = State(index: Option<Store>, metadata: seq<Record>)

  /** The failures the source raises (each surfaces as an HTTP error). */
  datatype Error =
    | NoIndex            // `faiss_index` is still None
    | EmptyIndex         // search on an absent or empty index
    | DescriptionFailed  // the vision call raised
    | EmbeddingFailed    // the embedding call raised
    | DimensionMismatch  // FAISS rejects a vector of the wrong length
    | MissingKey         // a metadata record lacks `image_path` or `description`

  /** A state-changing operation's outcome: the new state and the reply. */
  datatype Transition<R> = Transition(state: State, reply: Result<R, Error>)

  /** A new `IndexFlatL2(EMBEDDING_DIM)` with no metadata. */
  function Fresh(): (s: State)
    ensures Consistent(s) && s.index.value.NTotal() == 0 && s.index.value.dim == EmbeddingDim
  {
    State(Some(Empty(EmbeddingDim)), [])
  }

  /** The invariant the service relies on: an index exists and holds
      exactly one vector per metadata record. */
  predicate Consistent(s: State) {
    s.index.Some? && s.index.value.NTotal() == |s.metadata|
  }

  // ---------------------------------------------------------------------
  // get_indexed_image_paths and add_image_to_index
  // ---------------------------------------------------------------------

  /** `get_indexed_image_paths()`: each record's path in insertion order,
      `""` where the key is missing. */
  function IndexedImagePaths(metadata: seq<Record>): (paths: seq<string>)
    ensures |paths| == |metadata|
    ensures forall i :: 0 <= i < |metadata| ==>
      paths[i] == (if metadata[i].imagePath.Some? then metadata[i].imagePath.value else "")
  {
    if metadata == [] then []
    else IndexedImagePaths(metadata[..|metadata| - 1]) + [metadata[|metadata| - 1].imagePath.GetOr("")]
  }

  /** Python truthiness of the optional `image_path` argument. */
  predicate Given(imagePath: Option<string>) {
    imagePath.Some? && imagePath.value != ""
  }

  /** `image_path or "uploaded"`. */
  function StoredPath(imagePath: Option<string>): (p: string)
    ensures p != ""
    ensures Given(imagePath) ==> p == imagePath.value
    ensures !Given(imagePath) ==> p == AnonymousPath
  {
    if Given(imagePath) then imagePath.value else AnonymousPath
  }

  /** The duplicate check: a given path that some record already carries. */
  predicate IsDuplicate(s: State, imagePath: Option<string>) {
    Given(imagePath) && imagePath.value in IndexedImagePaths(s.metadata)
  }

  datatype AddReply =
    | Added(imagePath: string, description: string, indexSize: nat)
    | AlreadyIndexed(imagePath: string, indexSize: nat)

  /** `add_image_to_index(image_bytes, image_path)`. */
  function AddImage(s: State, image: Bytes, imagePath: Option<string>,
                    describe: Bytes -> Option<string>, embed: string -> Option<Vector>)
    : (t: Transition<AddReply>)
    // whatever fails, nothing was appended
    ensures t.reply.Failure? || t.reply.value.AlreadyIndexed? ==> t.state == s
    // a known path is never added twice
    ensures IsDuplicate(s, imagePath) ==> t.reply.Failure? || t.reply.value.AlreadyIndexed?
    ensures t.reply.Success? && t.reply.value.AlreadyIndexed? ==>
      && IsDuplicate(s, imagePath)
      && s.index.Some?
      && t.reply.value == AlreadyIndexed(imagePath.value, s.index.value.NTotal())
    // a success appends exactly one vector and one record
    ensures t.reply.Success? && t.reply.value.Added? ==>
      var description := t.reply.value.description;
      && !IsDuplicate(s, imagePath)
      && describe(image) == Some(description)
      && embed(description).Some?
      && t.state.index.Some? && s.index.Some?
      && t.state.index.value.dim == s.index.value.dim
      && t.state.index.value.vectors == s.index.value.vectors + [embed(description).value]
      && t.state.metadata == s.metadata + [Record(Some(StoredPath(imagePath)), Some(description))]
      && t.reply.value.imagePath == StoredPath(imagePath)
      && t.reply.value.indexSize == t.state.index.value.NTotal()
    // the add succeeds exactly when the index exists and either the path is
    // known or both remote calls succeed with a vector of the right length
    ensures t.reply.Success? <==>
      && s.index.Some?
      && (|| IsDuplicate(s, imagePath)
          || (&& describe(image).Some?
              && embed(describe(image).value).Some?
              && |embed(describe(image).value).value| == s.index.value.dim))
    ensures Consistent(s) ==> Consistent(t.state)
  {
    if IsDuplicate(s, imagePath) then
      if s.index.None? then Transition(s, Failure(NoIndex))
      else Transition(s, Success(AlreadyIndexed(imagePath.value, s.index.value.NTotal())))
    else
      match describe(image)
      case None => Transition(s, Failure(DescriptionFailed))
      case Some(description) =>
        match embed(description)
        case None => Transition(s, Failure(EmbeddingFailed))
        case Some(v) =>
          if s.index.None? then Transition(s, Failure(NoIndex))
          else if |v| != s.index.value.dim then Transition(s, Failure(DimensionMismatch))
          else
            var index' := Append(s.index.value, v);
            var path := StoredPath(imagePath);
            Transition(State(Some(index'), s.metadata + [Record(Some(path), Some(description))]),
                       Success(Added(path, description, index'.NTotal())))
  }

  /** Listing the paths after an add shows the old paths, then the new one. */
  lemma AddExtendsPathListing(s: State, image: Bytes, imagePath: Option<string>,
                              describe: Bytes -> Option<string>, embed: string -> Option<Vector>)
    requires AddImage(s, image, imagePath, describe, embed).reply.Success?
    requires AddImage(s, image, imagePath, describe, embed).reply.value.Added?
    ensures IndexedImagePaths(AddImage(s, image, imagePath, describe, embed).state.metadata)
         == IndexedImagePaths(s.metadata) + [StoredPath(imagePath)]
  {
    var t := AddImage(s, image, imagePath, describe, embed);
    assert t.state.metadata[..|t.state.metadata| - 1] == s.metadata;
  }

  /** Adding the same named image twice stores it once: the second call
      reports it as already indexed and changes nothing. */
  lemma {:induction false} AddSamePathTwice(s: State, image: Bytes, image2: Bytes, path: string,
                                            describe: Bytes -> Option<string>, embed: string -> Option<Vector>)
    requires path != ""
    requires AddImage(s, image, Some(path), describe, embed).reply.Success?
    ensures
      var s1 := AddImage(s, image, Some(path), describe, embed).state;
      var t2 := AddImage(s1, image2, Some(path), describe, embed);
      && t2.state == s1
      && t2.reply == Success(AlreadyIndexed(path, s1.index.value.NTotal()))
  {
    var t1 := AddImage(s, image, Some(path), describe, embed);
    if t1.reply.value.Added? {
      AddExtendsPathListing(s, image, Some(path), describe, embed);
      assert IndexedImagePaths(t1.state.metadata)[|s.metadata|] == path;
    }
  }

  /** Anonymous uploads, with no path or an empty one, are never
      deduplicated: with working remote calls, each one adds a record whose
      path is "uploaded". */
  lemma AnonymousUploadsAccumulate(s: State, image: Bytes, path: Option<string>,
                                   describe: Bytes -> Option<string>, embed: string -> Option<Vector>)
    requires s.index.Some? && !Given(path)
    requires describe(image).Some? && embed(describe(image).value).Some?
    requires |embed(describe(image).value).value| == s.index.value.dim
    ensures
      var t := AddImage(s, image, path, describe, embed);
      && t.reply.Success? && t.reply.value.Added?
      && |t.state.metadata| == |s.metadata| + 1
      && t.state.metadata[|s.metadata|].imagePath == Some(AnonymousPath)
  {
  }

  /** Named paths stay unique: two records share a path only if it is the
      anonymous one. */
  predicate UniqueNamedPaths(metadata: seq<Record>) {
    forall i, j :: 0 <= i < j < |metadata| && metadata[i].imagePath.Some? && metadata[i].imagePath == metadata[j].imagePath
      ==> metadata[i].imagePath.value == AnonymousPath
  }

  lemma AddKeepsNamedPathsUnique(s: State, image: Bytes, imagePath: Option<string>,
                                 describe: Bytes -> Option<string>, embed: string -> Option<Vector>)
    requires UniqueNamedPaths(s.metadata)
    ensures UniqueNamedPaths(AddImage(s, image, imagePath, describe, embed).state.metadata)
  {
    var t := AddImage(s, image, imagePath, describe, embed);
    if t.reply.Success? && t.reply.value.Added? {
      forall i | 0 <= i < |s.metadata| && s.metadata[i].imagePath.Some?
        ensures s.metadata[i].imagePath.value in IndexedImagePaths(s.metadata)
      {
        assert IndexedImagePaths(s.metadata)[i] == s.metadata[i].imagePath.value;
      }
    }
  }

  /** One call of the add route, with the answers the two remote calls give
      to it: a call that fails for one request may succeed for the next. */
  datatype AddRequest = AddRequest(image: Bytes, imagePath: Option<string>,
                                   describe: Bytes -> Option<string>, embed: string -> Option<Vector>)

  /** A session of adds, applied in order; the state after the last one. */
  function RunAdds(s: State, requests: seq<AddRequest>): State
    decreases |requests|
  {
    if requests == [] then s
    else
      var r := requests[0];
      RunAdds(AddImage(s, r.image, r.imagePath, r.describe, r.embed).state, requests[1..])
  }

  /** Starting from a consistent state, no session of adds can leave the
      index and the metadata at different lengths, or a named path twice. */
  lemma {:induction false} RunAddsKeepsInvariants(s: State, requests: seq<AddRequest>)
    requires Consistent(s) && UniqueNamedPaths(s.metadata)
    ensures Consistent(RunAdds(s, requests))
    ensures UniqueNamedPaths(RunAdds(s, requests).metadata)
    decreases |requests|
  {
    if requests != [] {
      var r := requests[0];
      AddKeepsNamedPathsUnique(s, r.image, r.imagePath, r.describe, r.embed);
      RunAddsKeepsInvariants(AddImage(s, r.image, r.imagePath, r.describe, r.embed).state, requests[1..]);
    }
  }

  // ---------------------------------------------------------------------
  // search_similar_images
  // ---------------------------------------------------------------------

  /** `(1 / (1 + distance)) * 100`, before rounding. */
  function Similarity(distance: real): (pct: real)
    requires distance >= 0.0
    ensures 0.0 < pct <= 100.0
    ensures pct == 100.0 <==> distance == 0.0
  {
    100.0 / (1.0 + distance)
  }

  /** Nearer means more similar. */
  lemma SimilarityDecreases(d1: real, d2: real)
    requires 0.0 <= d1 < d2
    ensures Similarity(d1) > Similarity(d2)
  {
    QuotientDecreases(100.0, 1.0 + d1, 1.0 + d2);
  }

  /** Dividing by a larger positive number gives a smaller quotient. */
  lemma QuotientDecreases(n: real, a: real, b: real)
    requires n > 0.0 && 0.0 < a < b
    ensures n / a > n / b
  {
    var x, y := n / a, n / b;
    assert x * a == n && y * b == n;
    ScaleIncreases(x, a, b);
    ScaleCancels(y, x, b);
  }

  /** A positive factor keeps the order of the other factor. */
  lemma ScaleIncreases(x: real, a: real, b: real)
    requires x > 0.0 && a < b
    ensures x * a < x * b
  {
  }

  /** A positive common factor can be cancelled from a strict inequality. */
  lemma ScaleCancels(y: real, x: real, b: real)
    requires b > 0.0 && y * b < x * b
    ensures y < x
  {
  }

  /** One element of the reply's `results`. */
  datatype Hit = Hit(rank: nat, imagePath: string, description: string, similarity: real, distance: real)

  datatype SearchReply = SearchReply(queryDescription: string, results: seq<Hit>)

  predicate NonNegativeDistances(ns: seq<Neighbour>) {
    forall i :: 0 <= i < |ns| ==> ns[i].distance >= 0.0
  }

  /** The neighbour at list position `i` is reported, because the metadata
      has a record at its index position. */
  predicate Reported(ns: seq<Neighbour>, metadata: seq<Record>, i: int) {
    0 <= i < |ns| && ns[i].position < |metadata|
  }

  /** The result the loop body builds for neighbour `i`. */
  function HitFor(ns: seq<Neighbour>, metadata: seq<Record>, i: nat): Hit
    requires Reported(ns, metadata, i) && NonNegativeDistances(ns)
    requires metadata[ns[i].position].imagePath.Some? && metadata[ns[i].position].description.Some?
  {
    var rec := metadata[ns[i].position];
    Hit(i + 1, rec.imagePath.value, rec.description.value, Similarity(ns[i].distance), ns[i].distance)
  }

  predicate HasKeys(r: Record) {
    r.imagePath.Some? && r.description.Some?
  }

  /** The loop over the neighbours from list position `from` on: skip those
      past the end of the metadata, report the others with rank `i + 1`. */
  function JoinFrom(ns: seq<Neighbour>, metadata: seq<Record>, from: nat): (r: Result<seq<Hit>, Error>)
    requires from <= |ns| && NonNegativeDistances(ns)
    ensures r.Success? <==> forall i :: from <= i < |ns| && Reported(ns, metadata, i) ==> HasKeys(metadata[ns[i].position])
    ensures r.Failure? ==> r.error == MissingKey
    ensures r.Success? ==> forall k :: 0 <= k < |r.value| ==> JoinedAt(ns, metadata, from, r.value[k])
    decreases |ns| - from
  {
    if from == |ns| then Success([])
    else if !Reported(ns, metadata, from) then JoinFrom(ns, metadata, from + 1)
    else if !HasKeys(metadata[ns[from].position]) then Failure(MissingKey)
    else
      var rest :- JoinFrom(ns, metadata, from + 1);
      Success([HitFor(ns, metadata, from)] + rest)
  }

  /** `h` is the result built for a reported neighbour at list position
      `from` or later. */
  predicate JoinedAt(ns: seq<Neighbour>, metadata: seq<Record>, from: nat, h: Hit)
    requires NonNegativeDistances(ns)
  {
    && from < h.rank <= |ns|
    && Reported(ns, metadata, h.rank - 1)
    && HasKeys(metadata[ns[h.rank - 1].position])
    && h == HitFor(ns, metadata, h.rank - 1)
  }

  /** Results keep the neighbours' order: ranks strictly increase. */
  lemma {:induction false} JoinRanksIncrease(ns: seq<Neighbour>, metadata: seq<Record>, from: nat)
    requires from <= |ns| && NonNegativeDistances(ns)
    requires JoinFrom(ns, metadata, from).Success?
    ensures var hits := JoinFrom(ns, metadata, from).value;
      forall k, l :: 0 <= k < l < |hits| ==> hits[k].rank < hits[l].rank
    decreases |ns| - from
  {
    if from < |ns| {
      JoinRanksIncrease(ns, metadata, from + 1);
    }
  }

  /** No reported neighbour is dropped. */
  lemma {:induction false} JoinIsComplete(ns: seq<Neighbour>, metadata: seq<Record>, from: nat)
    requires from <= |ns| && NonNegativeDistances(ns)
    requires JoinFrom(ns, metadata, from).Success?
    ensures forall i :: from <= i < |ns| && Reported(ns, metadata, i) ==>
      HasRank(JoinFrom(ns, metadata, from).value, i + 1)
    decreases |ns| - from
  {
    if from < |ns| {
      JoinIsComplete(ns, metadata, from + 1);
      var rest := JoinFrom(ns, metadata, from + 1).value;
      if Reported(ns, metadata, from) {
        var h := HitFor(ns, metadata, from);
        assert JoinFrom(ns, metadata, from).value == [h] + rest;
        assert ([h] + rest)[0] == h;
        forall i | from < i < |ns| && Reported(ns, metadata, i)
          ensures HasRank([h] + rest, i + 1)
        {
          HasRankCons(h, rest, i + 1);
        }
      } else {
        assert JoinFrom(ns, metadata, from).value == rest;
      }
    }
  }

  /** Some result carries the given rank. */
  predicate HasRank(hits: seq<Hit>, rank: int) {
    exists k :: 0 <= k < |hits| && hits[k].rank == rank
  }

  lemma HasRankCons(h: Hit, rest: seq<Hit>, rank: int)
    requires HasRank(rest, rank)
    ensures HasRank([h] + rest, rank)
  {
    var k :| 0 <= k < |rest| && rest[k].rank == rank;
    assert ([h] + rest)[k + 1] == rest[k];
  }

  /** When every position has a record, a successful join keeps one result
      per neighbour from `from` on. */
  lemma {:induction false} JoinOfConsistentIndexKeepsAll(ns: seq<Neighbour>, metadata: seq<Record>, from: nat)
    requires from <= |ns| && NonNegativeDistances(ns)
    requires forall i :: 0 <= i < |ns| ==> ns[i].position < |metadata|
    requires JoinFrom(ns, metadata, from).Success?
    ensures |JoinFrom(ns, metadata, from).value| == |ns| - from
    decreases |ns| - from
  {
    if from < |ns| {
      JoinOfConsistentIndexKeepsAll(ns, metadata, from + 1);
    }
  }

  function Min(a: int, b: int): int {
    if a <= b then a else b
  }

  /** `search_similar_images(image_bytes, top_k)`. */
  function SearchSimilarImages(s: State, image: Bytes, topK: int,
                               describe: Bytes -> Option<string>, embed: string -> Option<Vector>)
    : (r: Result<SearchReply, Error>)
    requires topK >= 1
    ensures s.index.None? || s.index.value.NTotal() == 0 ==> r == Failure(EmptyIndex)
    // the search succeeds exactly when the index holds a vector, both remote
    // calls succeed with a vector of the right length, and every neighbour
    // found that has a record has both keys in it
    ensures r.Success? <==>
      && s.index.Some? && s.index.value.NTotal() > 0
      && describe(image).Some?
      && embed(describe(image).value).Some?
      && |embed(describe(image).value).value| == s.index.value.dim
      && var ns := Neighbours(s, embed(describe(image).value).value, topK);
         forall i :: 0 <= i < |ns| && Reported(ns, s.metadata, i) ==> HasKeys(s.metadata[ns[i].position])
    ensures r.Success? ==>
      && s.index.Some?
      && describe(image) == Some(r.value.queryDescription)
      && embed(r.value.queryDescription).Some?
      && |r.value.results| <= topK
      && |r.value.results| <= s.index.value.NTotal()
    // results are listed nearest first, under their 1-based neighbour rank
    ensures r.Success? ==> forall k, l :: 0 <= k < l < |r.value.results| ==>
      && r.value.results[k].rank < r.value.results[l].rank
      && r.value.results[k].distance <= r.value.results[l].distance
    ensures r.Success? ==> forall k :: 0 <= k < |r.value.results| ==>
      var h := r.value.results[k];
      && 1 <= h.rank <= Min(topK, s.index.value.NTotal())
      && h.distance >= 0.0
      && h.similarity == 100.0 / (1.0 + h.distance)
  {
    if s.index.None? || s.index.value.NTotal() == 0 then Failure(EmptyIndex)
    else
      match describe(image)
      case None => Failure(DescriptionFailed)
      case Some(description) =>
        match embed(description)
        case None => Failure(EmbeddingFailed)
        case Some(q) =>
          var index := s.index.value;
          if |q| != index.dim then Failure(DimensionMismatch)
          else
            var hits :- Ranked(Search(index, q, Min(topK, index.NTotal())), s.metadata);
            Success(SearchReply(description, hits))
  }

  /** The results for the neighbours the index returned, nearest first. */
  function Ranked(ns: seq<Neighbour>, metadata: seq<Record>): (r: Result<seq<Hit>, Error>)
    requires Sorted(ns) && NonNegativeDistances(ns)
    ensures r.Success? <==> forall i :: 0 <= i < |ns| && Reported(ns, metadata, i) ==> HasKeys(metadata[ns[i].position])
    ensures r.Success? ==> |r.value| <= |ns|
    ensures r.Success? ==> forall k, l :: 0 <= k < l < |r.value| ==>
      r.value[k].rank < r.value[l].rank && r.value[k].distance <= r.value[l].distance
    ensures r.Success? ==> forall k :: 0 <= k < |r.value| ==>
      var h := r.value[k];
      1 <= h.rank <= |ns| && h.distance >= 0.0 && h.similarity == 100.0 / (1.0 + h.distance)
  {
    var hits :- JoinFrom(ns, metadata, 0);
    JoinRanksIncrease(ns, metadata, 0);
    HitsFollowNeighbours(ns, metadata, hits);
    Success(hits)
  }

  lemma HitsFollowNeighbours(ns: seq<Neighbour>, metadata: seq<Record>, hits: seq<Hit>)
    requires Sorted(ns) && NonNegativeDistances(ns)
    requires forall k :: 0 <= k < |hits| ==> JoinedAt(ns, metadata, 0, hits[k])
    requires forall k, l :: 0 <= k < l < |hits| ==> hits[k].rank < hits[l].rank
    ensures |hits| <= |ns|
    ensures forall k, l :: 0 <= k < l < |hits| ==> hits[k].distance <= hits[l].distance
    ensures forall k :: 0 <= k < |hits| ==>
      1 <= hits[k].rank <= |ns| && hits[k].distance >= 0.0 && hits[k].similarity == 100.0 / (1.0 + hits[k].distance)
  {
    forall k, l | 0 <= k < l < |hits|
      ensures hits[k].distance <= hits[l].distance
    {
      assert Before(ns[hits[k].rank - 1], ns[hits[l].rank - 1]);
    }
    RanksBoundCount(hits, |ns|);
  }

  /** Strictly increasing ranks within 1..n leave room for at most n hits. */
  lemma {:induction false} RanksBoundCount(hits: seq<Hit>, n: nat)
    requires forall k :: 0 <= k < |hits| ==> 1 <= hits[k].rank <= n
    requires forall k, l :: 0 <= k < l < |hits| ==> hits[k].rank < hits[l].rank
    ensures |hits| <= n
    decreases n
  {
    if hits != [] {
      var last := hits[|hits| - 1];
      RanksBoundCount(hits[..|hits| - 1], last.rank - 1);
    }
  }

  /** The neighbours FAISS returns for a query vector. */
  function Neighbours(s: State, q: Vector, topK: int): (ns: seq<Neighbour>)
    requires topK >= 1 && s.index.Some? && |q| == s.index.value.dim
    ensures |ns| == Min(topK, s.index.value.NTotal())
    ensures Sorted(ns) && NonNegativeDistances(ns)
  {
    Search(s.index.value, q, Min(topK, s.index.value.NTotal()))
  }

  lemma SearchJoinsNeighbours(s: State, image: Bytes, topK: int,
                              describe: Bytes -> Option<string>, embed: string -> Option<Vector>)
    requires topK >= 1
    requires SearchSimilarImages(s, image, topK, describe, embed).Success?
    ensures s.index.Some? && describe(image).Some? && embed(describe(image).value).Some?
    ensures |embed(describe(image).value).value| == s.index.value.dim
    ensures
      var ns := Neighbours(s, embed(describe(image).value).value, topK);
      && JoinFrom(ns, s.metadata, 0).Success?
      && SearchSimilarImages(s, image, topK, describe, embed).value.results == JoinFrom(ns, s.metadata, 0).value
  {
  }

  /** On a consistent index every neighbour has a record, so a search
      returns exactly `min(top_k, ntotal)` results, ranked 1, 2, 3, ...,
      each carrying the metadata of its own neighbour. */
  lemma SearchOfConsistentIndexReturnsAll(s: State, image: Bytes, topK: int,
                                          describe: Bytes -> Option<string>, embed: string -> Option<Vector>)
    requires topK >= 1 && Consistent(s)
    requires SearchSimilarImages(s, image, topK, describe, embed).Success?
    ensures s.index.Some? && describe(image).Some? && embed(describe(image).value).Some?
    ensures |embed(describe(image).value).value| == s.index.value.dim
    ensures
      var results := SearchSimilarImages(s, image, topK, describe, embed).value.results;
      var ns := Neighbours(s, embed(describe(image).value).value, topK);
      && |results| == Min(topK, |s.metadata|)
      && forall k :: 0 <= k < |results| ==>
        && results[k].rank == k + 1
        && Some(results[k].imagePath) == s.metadata[ns[k].position].imagePath
        && Some(results[k].description) == s.metadata[ns[k].position].description
        && results[k].distance == ns[k].distance
  {
    SearchJoinsNeighbours(s, image, topK, describe, embed);
    var ns := Neighbours(s, embed(describe(image).value).value, topK);
    JoinAllOfConsistentIndex(ns, s.metadata);
  }

  /** On a consistent index whose records all carry both keys, a search
      fails only when a remote call does. */
  lemma SearchOfConsistentIndexSucceeds(s: State, image: Bytes, topK: int,
                                        describe: Bytes -> Option<string>, embed: string -> Option<Vector>)
    requires topK >= 1 && Consistent(s) && |s.metadata| > 0
    requires forall i :: 0 <= i < |s.metadata| ==> HasKeys(s.metadata[i])
    requires describe(image).Some? && embed(describe(image).value).Some?
    requires |embed(describe(image).value).value| == s.index.value.dim
    ensures SearchSimilarImages(s, image, topK, describe, embed).Success?
  {
    var ns := Neighbours(s, embed(describe(image).value).value, topK);
    assert forall i :: 0 <= i < |ns| && Reported(ns, s.metadata, i) ==> HasKeys(s.metadata[ns[i].position]);
  }

  lemma JoinAllOfConsistentIndex(ns: seq<Neighbour>, metadata: seq<Record>)
    requires NonNegativeDistances(ns)
    requires forall i :: 0 <= i < |ns| ==> ns[i].position < |metadata|
    requires JoinFrom(ns, metadata, 0).Success?
    ensures var hits := JoinFrom(ns, metadata, 0).value;
      && |hits| == |ns|
      && forall k :: 0 <= k < |hits| ==>
        && hits[k].rank == k + 1
        && Some(hits[k].imagePath) == metadata[ns[k].position].imagePath
        && Some(hits[k].description) == metadata[ns[k].position].description
        && hits[k].distance == ns[k].distance
  {
    JoinOfConsistentIndexKeepsAll(ns, metadata, 0);
    JoinRanksIncrease(ns, metadata, 0);
    var hits := JoinFrom(ns, metadata, 0).value;
    assert forall k :: 0 <= k < |hits| ==> JoinedAt(ns, metadata, 0, hits[k]);
    RanksAreConsecutive(hits, |ns|);
    forall k | 0 <= k < |hits|
      ensures hits[k].rank == k + 1
      ensures Some(hits[k].imagePath) == metadata[ns[k].position].imagePath
      ensures Some(hits[k].description) == metadata[ns[k].position].description
      ensures hits[k].distance == ns[k].distance
    {
      assert JoinedAt(ns, metadata, 0, hits[k]);
      assert hits[k] == HitFor(ns, metadata, k);
    }
  }

  /** |n| strictly increasing ranks within 1..n are exactly 1..n. */
  lemma {:induction false} RanksAreConsecutive(hits: seq<Hit>, n: nat)
    requires |hits| == n
    requires forall k :: 0 <= k < |hits| ==> 1 <= hits[k].rank <= n
    requires forall k, l :: 0 <= k < l < |hits| ==> hits[k].rank < hits[l].rank
    ensures forall k :: 0 <= k < |hits| ==> hits[k].rank == k + 1
    decreases n
  {
    if n > 0 {
      var init := hits[..n - 1];
      var last := hits[n - 1];
      assert last.rank == n by {
        if last.rank < n {
          RanksBoundCount(init, last.rank - 1);
        }
      }
      RanksAreConsecutive(init, n - 1);
    }
  }

  // ---------------------------------------------------------------------
  // get_index_stats
  // ---------------------------------------------------------------------

  datatype Stats = Stats(indexSize: nat, metadataCount: nat, embeddingDimension: nat)

  /** `GET /index-stats`. */
  function IndexStats(s: State): (st: Stats)
    ensures s.index.None? ==> st.indexSize == 0
    ensures s.index.Some? ==> st.indexSize == s.index.value.NTotal()
    ensures st.metadataCount == |s.metadata|
    ensures st.embeddingDimension == EmbeddingDim
    ensures Consistent(s) ==> st.indexSize == st.metadataCount
  {
    Stats(if s.index.Some? then s.index.value.NTotal() else 0, |s.metadata|, EmbeddingDim)
  }

  /** The size an add reports is the size the statistics show next. */
  lemma StatsAfterAdd(s: State, image: Bytes, imagePath: Option<string>,
                      describe: Bytes -> Option<string>, embed: string -> Option<Vector>)
    requires AddImage(s, image, imagePath, describe, embed).reply.Success?
    ensures
      var t := AddImage(s, image, imagePath, describe, embed);
      IndexStats(t.state).indexSize == t.reply.value.indexSize
      && IndexStats(t.state).indexSize == IndexStats(s).indexSize + (if t.reply.value.Added? then 1 else 0)
  {
  }

  // ---------------------------------------------------------------------
  // lifespan: load at start-up, save at shutdown
  // ---------------------------------------------------------------------

  /** What `faiss.write_index` and `pickle.dump` persist together. */
  datatype Snapshot = Snapshot(index: Store, metadata: seq<Record>)

  /** Start-up. `filesPresent`: both files exist; `loaded`: the pair read
      from them, or None when either read raised. */
  function Startup(filesPresent: bool, loaded: Option<Snapshot>): (s: State)
    ensures s.index.Some?
    ensures !filesPresent || loaded.None? ==>
      Consistent(s) && s.index.value.NTotal() == 0 && s.index.value.dim == EmbeddingDim && s.metadata == []
    ensures filesPresent && loaded.Some? ==> s.index.value == loaded.value.index && s.metadata == loaded.value.metadata
  {
    if filesPresent && loaded.Some? then State(Some(loaded.value.index), loaded.value.metadata)
    else Fresh()
  }

  /** Shutdown: the snapshot written, if any. */
  function Shutdown(s: State): (saved: Option<Snapshot>)
    ensures saved.Some? <==> s.index.Some? && s.index.value.NTotal() > 0
  {
    if s.index.Some? && s.index.value.NTotal() > 0 then Some(Snapshot(s.index.value, s.metadata)) else None
  }

  /** Saving and loading again restores the state exactly. */
  lemma RestartRestoresState(s: State)
    requires Shutdown(s).Some?
    ensures Startup(true, Shutdown(s)) == s
  {
  }
}

=== FILE: object_counts.dfy ===
/** `object_permanence.py`: count the YOLO boxes of each class in every
    image of a directory and lay the counts out as a CSV table with one row
    per image and one column per class seen anywhere. The model call is the
    parameter `infer`; what the input path names and the CSV writer's
    success are inputs. */
module ObjectCounts {
  import opened Wrappers
  import opened Text

  // ---------------------------------------------------------------------
  // detect_objects_in_image
  // ---------------------------------------------------------------------

  /** One model call on an image: for each result, the class names of its
      boxes (None where `result.boxes` is None); or `Raised` when the call,
      a class lookup or saving the annotated copy raised. */
  datatype Inference = Raised | Results(results: seq<Option<seq<string>>>)

  /** The class names of all boxes of all results, in order. */
  function BoxNames(results: seq<Option<seq<string>>>): seq<string>
    decreases |results|
  {
    if results == [] then []
    else BoxNames(results[..|results| - 1]) + results[|results| - 1].GetOr([])
  }

  /** The `defaultdict(int)` loop: one increment per name. */
  function CountNames(names: seq<string>): (counts: map<string, nat>)
    ensures forall c :: c in counts <==> c in multiset(names)
    ensures forall c :: c in counts ==> counts[c] == multiset(names)[c]
    decreases |names|
  {
    if names == [] then map[]
    else
      var init := names[..|names| - 1];
      var c := names[|names| - 1];
      assert names == init + [c];
      var prev := CountNames(init);
      prev[c := (if c in prev then prev[c] else 0) + 1]
  }

  /** `detect_objects_in_image(model, image_path, ...)`. */
  function DetectObjects(inference: Inference): (counts: map<string, nat>)
    // an error yields no counts at all
    ensures inference.Raised? ==> counts == map[]
    // otherwise each class seen is counted once per box, and only classes seen appear
    ensures inference.Results? ==> forall c ::
      && (c in counts <==> c in multiset(BoxNames(inference.results)))
      && (c in counts ==> counts[c] == multiset(BoxNames(inference.results))[c] >= 1)
  {
    match inference
    case Raised => map[]
    case Results(results) => CountNames(BoxNames(results))
  }

  /** One inference that returns three results, the second without boxes:
      two cups and one fork. */
  lemma DetectObjectsExample()
    ensures DetectObjects(Results([Some(["cup", "fork"]), None, Some(["cup"])])) == map["cup" := 2, "fork" := 1]
  {
    ExampleBoxNames();
    ExampleCounts();
  }

  lemma ExampleBoxNames()
    ensures BoxNames([Some(["cup", "fork"]), None, Some(["cup"])]) == ["cup", "fork", "cup"]
  {
    var results: seq<Option<seq<string>>> := [Some(["cup", "fork"]), None, Some(["cup"])];
    assert results[..2][..1] == results[..1] && results[..1][..0] == [];
    assert BoxNames(results[..1]) == ["cup", "fork"];
    assert results[..2] == results[..1] + [None];
    assert BoxNames(results[..2]) == ["cup", "fork"];
  }

  lemma ExampleCounts()
    ensures CountNames(["cup", "fork", "cup"]) == map["cup" := 2, "fork" := 1]
  {
    var names := ["cup", "fork", "cup"];
    assert "cup" != "fork";
    assert names[..2][..1][..0] == [];
    assert CountNames(names[..2][..1]) == map["cup" := 1];
    assert names[..2] == ["cup", "fork"];
    assert CountNames(names[..2]) == map["cup" := 1, "fork" := 1];
  }

  // ---------------------------------------------------------------------
  // process_images: choosing the files
  // ---------------------------------------------------------------------

  /** An entry of `Path.iterdir()`. */
  datatype Entry = Entry(name: string, isFile: bool)

  const ImageExtensions: set<string> := {".jpg", ".jpeg", ".png", ".bmp", ".tiff", ".webp"}

  predicate IsImageFile(e: Entry) {
    e.isFile && Lower(Suffix(e.name)) in ImageExtensions
  }

  /** The list comprehension over the directory, in listing order. */
  function ImageNames(listing: seq<Entry>): (names: seq<string>)
    ensures forall x :: x in names <==> exists i :: 0 <= i < |listing| && IsImageFile(listing[i]) && listing[i].name == x
    // one name per image entry: the same name twice only for two entries
    ensures forall x :: multiset(names)[x] == |ImageEntriesNamed(listing, x)|
    ensures |names| <= |listing|
  {
    var keep := seq(|listing|, i requires 0 <= i < |listing| => IsImageFile(listing[i]));
    forall x ensures KeptWith(listing, keep, x) == ImageEntriesNamed(listing, x) {
    }
    KeptNames(listing, keep)
  }

  /** The positions of the image files named `x`. */
  function ImageEntriesNamed(listing: seq<Entry>, x: string): set<nat> {
    set i: nat | i < |listing| && IsImageFile(listing[i]) && listing[i].name == x
  }

  /** The names of the entries whose flag is set, in listing order. */
  function KeptNames(listing: seq<Entry>, keep: seq<bool>): (names: seq<string>)
    requires |keep| == |listing|
    ensures forall x :: x in names <==> exists i :: 0 <= i < |listing| && keep[i] && listing[i].name == x
    // one name per kept entry
    ensures forall x :: multiset(names)[x] == |KeptWith(listing, keep, x)|
    ensures |names| <= |listing|
    decreases |listing|
  {
    if listing == [] then
      NoneKept(listing, keep);
      []
    else
      var n := |listing| - 1;
      var kept := KeptNames(listing[..n], keep[..n]);
      assert forall i :: 0 <= i < n ==> listing[..n][i] == listing[i] && keep[..n][i] == keep[i];
      var last := if keep[n] then [listing[n].name] else [];
      KeptCountStep(listing, keep, kept, last);
      kept + last
  }

  lemma NoneKept(listing: seq<Entry>, keep: seq<bool>)
    requires |keep| == |listing| == 0
    ensures forall x :: |KeptWith(listing, keep, x)| == 0
  {
    forall x ensures |KeptWith(listing, keep, x)| == 0 {
      assert KeptWith(listing, keep, x) == {};
    }
  }

  lemma KeptCountStep(listing: seq<Entry>, keep: seq<bool>, kept: seq<string>, last: seq<string>)
    requires |keep| == |listing| > 0
    requires forall x :: multiset(kept)[x] == |KeptWith(listing[..|listing| - 1], keep[..|listing| - 1], x)|
    requires last == if keep[|listing| - 1] then [listing[|listing| - 1].name] else []
    ensures forall x :: multiset(kept + last)[x] == |KeptWith(listing, keep, x)|
  {
    forall x ensures multiset(kept + last)[x] == |KeptWith(listing, keep, x)| {
      KeptWithLast(listing, keep, x);
    }
  }

  /** The positions of the kept entries named `x`. */
  function KeptWith(listing: seq<Entry>, keep: seq<bool>, x: string): set<nat>
    requires |keep| == |listing|
  {
    set i: nat | i < |listing| && keep[i] && listing[i].name == x
  }

  lemma KeptWithLast(listing: seq<Entry>, keep: seq<bool>, x: string)
    requires |keep| == |listing| > 0
    ensures var n := |listing| - 1;
      |KeptWith(listing, keep, x)|
        == |KeptWith(listing[..n], keep[..n], x)| + (if keep[n] && listing[n].name == x then 1 else 0)
  {
    var n := |listing| - 1;
    var all := KeptWith(listing, keep, x);
    var before := KeptWith(listing[..n], keep[..n], x);
    var extra := if keep[n] && listing[n].name == x then {n} else {};
    forall i | i in all ensures i in before + extra {
      if i < n {
        assert listing[..n][i] == listing[i] && keep[..n][i] == keep[i];
      }
    }
    forall i | i in before ensures i in all {
      assert listing[..n][i] == listing[i] && keep[..n][i] == keep[i];
    }
    assert all == before + extra;
    assert n !in before;
  }

  /** What `Path(input_dir)` names: nothing, something `iterdir()` cannot
      list (a plain file, or a directory that may not be read), or a
      directory with its entries. */
  datatype Directory = Missing | Unlistable | Listing(entries: seq<Entry>)

  datatype Error =
    | DirectoryMissing  // the input directory does not exist
    | ListingRaised     // `iterdir()` raised; the exception escapes instead of a False return
    | NoImages          // no file with an image extension
    | ModelLoadFailed   // `YOLO(model_name)` raised
    | CsvWriteFailed    // opening or writing the CSV raised

  /** The image files to process, sorted. */
  function SelectImages(dir: Directory): (r: Result<seq<string>, Error>)
    ensures dir.Missing? ==> r == Failure(DirectoryMissing)
    ensures dir.Unlistable? ==> r == Failure(ListingRaised)
    ensures dir.Listing? && ImageNames(dir.entries) == [] ==> r == Failure(NoImages)
    ensures dir.Listing? && ImageNames(dir.entries) != [] ==> r.Success?
    ensures r.Success? ==>
      && r.value != []
      && Ascending(r.value)
      && multiset(r.value) == multiset(ImageNames(dir.entries))
      && (forall x :: multiset(r.value)[x] == |ImageEntriesNamed(dir.entries, x)|)
      && forall k :: 0 <= k < |r.value| ==> exists i :: 0 <= i < |dir.entries| && IsImageFile(dir.entries[i]) && dir.entries[i].name == r.value[k]
  {
    if dir.Missing? then Failure(DirectoryMissing)
    else if dir.Unlistable? then Failure(ListingRaised)
    else
      var names := ImageNames(dir.entries);
      if names == [] then Failure(NoImages)
      else
        var sorted := Sort(names);
        forall k | 0 <= k < |sorted|
          ensures exists i :: 0 <= i < |dir.entries| && IsImageFile(dir.entries[i]) && dir.entries[i].name == sorted[k]
        {
          assert sorted[k] in multiset(names);
          assert sorted[k] in names;
        }
        Success(sorted)
  }

  /** Upper-case extensions count: `photo.JPG` is an image file. */
  lemma UpperCaseExtensionIsImage()
    ensures IsImageFile(Entry("a.JPG", true))
    ensures !IsImageFile(Entry("a.JPG", false))
  {
    ExampleSuffix();
    ExampleLowerSuffix();
  }

  lemma ExampleSuffix()
    ensures Suffix("a.JPG") == ".JPG"
  {
    var n := "a.JPG";
    assert n[0] == 'a' && n[1] == '.' && n[2] == 'J' && n[3] == 'P' && n[4] == 'G';
    assert LastIndex(n, '/') == -1;
    assert Name(n) == n;
    assert LastIndex(n, '.') == 1;
  }

  lemma ExampleLowerSuffix()
    ensures Lower(".JPG") == ".jpg"
  {
  }

  // ---------------------------------------------------------------------
  // process_images: the table
  // ---------------------------------------------------------------------

  /** A CSV field: the file name or a count. */
  datatype Cell = Str(s: string) | Num(n: nat)

  datatype Table = Table(header: seq<string>, rows: seq<seq<Cell>>)

  /** `all_categories`: the union of the keys of all per-image counts. */
  function Categories(counts: seq<map<string, nat>>): (cats: set<string>)
    ensures forall c :: c in cats <==> exists i :: 0 <= i < |counts| && c in counts[i]
    decreases |counts|
  {
    if counts == [] then {}
    else
      var init := counts[..|counts| - 1];
      assert forall i :: 0 <= i < |init| ==> counts[i] == init[i];
      Categories(init) + counts[|counts| - 1].Keys
  }

  /** `fieldnames = ["image"] + sorted(all_categories)`. */
  function Header(cats: set<string>): (h: seq<string>)
    ensures |h| == |cats| + 1 && h[0] == "image"
    ensures StrictlyAscending(h[1..])
    ensures forall c :: c in h[1..] <==> c in cats
  {
    ["image"] + SortedSet(cats)
  }

  /** The header repeats a name only when some class is itself called
      "image". */
  lemma HeaderDistinctUnlessImageClass(cats: set<string>)
    ensures var h := Header(cats);
      (forall k, l :: 0 <= k < l < |h| ==> h[k] != h[l]) <==> "image" !in cats
  {
    var h := Header(cats);
    if "image" in cats {
      var l :| 1 <= l < |h| && h[l] == "image";
      assert h[0] == h[l];
    } else {
      forall k, l | 0 <= k < l < |h| ensures h[k] != h[l] {
        if k > 0 {
          assert h[1..][k - 1] == h[k] && h[1..][l - 1] == h[l];
          LessIrreflexive(h[k]);
        } else {
          assert h[l] in h[1..];
        }
      }
    }
  }

  /** `result_row`: the dict `{"image": name}` updated with the counts. */
  function ResultRow(name: string, counts: map<string, nat>): map<string, Cell> {
    map["image" := Str(name)] + map c | c in counts :: Num(counts[c])
  }

  /** The value written under column `field` for one image:
      `result_row.get(field, 0)`, so a class named "image" overwrites the
      file name. */
  function CellFor(name: string, counts: map<string, nat>, field: string): (cell: Cell)
    ensures var row := ResultRow(name, counts);
      cell == if field in row then row[field] else Num(0)
  {
    if field in counts then Num(counts[field])
    else if field == "image" then Str(name)
    else Num(0)
  }

  function Row(name: string, counts: map<string, nat>, header: seq<string>): (row: seq<Cell>)
    ensures |row| == |header|
    ensures forall k :: 0 <= k < |row| ==> row[k] == CellFor(name, counts, header[k])
  {
    seq(|header|, k requires 0 <= k < |header| => CellFor(name, counts, header[k]))
  }

  /** The header and the rows `csv.DictWriter` writes. */
  function BuildTable(names: seq<string>, counts: seq<map<string, nat>>): (t: Table)
    requires |names| == |counts|
    ensures t.header == Header(Categories(counts))
    ensures |t.rows| == |names|
    ensures forall i :: 0 <= i < |t.rows| ==> |t.rows[i]| == |t.header|
    // the first field names the image, unless it has a class called "image"
    ensures forall i :: 0 <= i < |t.rows| && "image" !in counts[i] ==> t.rows[i][0] == Str(names[i])
    // every class column holds that image's count, 0 where it had none
    ensures forall i, k :: 0 <= i < |t.rows| && 1 <= k < |t.header| && t.header[k] != "image" ==>
      t.rows[i][k] == Num(if t.header[k] in counts[i] then counts[i][t.header[k]] else 0)
  {
    var header := Header(Categories(counts));
    var rows := seq(|names|, i requires 0 <= i < |names| => Row(names[i], counts[i], header));
    forall i | 0 <= i < |rows|
      ensures |rows[i]| == |header|
      ensures "image" !in counts[i] ==> rows[i][0] == Str(names[i])
      ensures forall k :: 1 <= k < |header| && header[k] != "image" ==>
        rows[i][k] == Num(if header[k] in counts[i] then counts[i][header[k]] else 0)
    {
      RowCells(names[i], counts[i], header);
    }
    Table(header, rows)
  }

  /** Every `image` field of a row, the first one or a class column named
      "image", holds that image's count of class "image", and its file name
      where it had none. */
  lemma ImageFieldsHoldNameOrCount(names: seq<string>, counts: seq<map<string, nat>>)
    requires |names| == |counts|
    ensures var t := BuildTable(names, counts);
      forall i, k :: 0 <= i < |t.rows| && 0 <= k < |t.header| && t.header[k] == "image" ==>
        t.rows[i][k] == if "image" in counts[i] then Num(counts[i]["image"]) else Str(names[i])
  {
    var t := BuildTable(names, counts);
    forall i | 0 <= i < |t.rows|
      ensures forall k :: 0 <= k < |t.header| && t.header[k] == "image" ==>
        t.rows[i][k] == if "image" in counts[i] then Num(counts[i]["image"]) else Str(names[i])
    {
      assert t.rows[i] == Row(names[i], counts[i], t.header);
      RowCells(names[i], counts[i], t.header);
    }
  }

  /** The cells of a row: a class field holds the count or 0, and an
      `image` field the count of a class named "image", else the file name. */
  lemma RowCells(name: string, counts: map<string, nat>, header: seq<string>)
    ensures var row := Row(name, counts, header);
      && (forall k :: 0 <= k < |header| && header[k] != "image" ==>
            row[k] == Num(if header[k] in counts then counts[header[k]] else 0))
      && (forall k :: 0 <= k < |header| && header[k] == "image" ==>
            row[k] == if "image" in counts then Num(counts["image"]) else Str(name))
  {
    var row := Row(name, counts, header);
    forall k | 0 <= k < |header|
      ensures header[k] != "image" ==> row[k] == Num(if header[k] in counts then counts[header[k]] else 0)
      ensures header[k] == "image" ==> row[k] == if "image" in counts then Num(counts["image"]) else Str(name)
    {
      assert row[k] == CellFor(name, counts, header[k]);
    }
  }

  /** A class named "image" replaces the file name in that image's row. */
  lemma ImageClassOverwritesName()
    ensures BuildTable(["a.jpg"], [map["image" := 3]]).rows[0][0] == Num(3)
  {
  }

  /** The counts of each processed image, in processing order. */
  function CountAll(files: seq<string>, infer: string -> Inference): (counts: seq<map<string, nat>>)
    ensures |counts| == |files|
    ensures forall i :: 0 <= i < |files| ==> counts[i] == DetectObjects(infer(files[i]))
  {
    seq(|files|, i requires 0 <= i < |files| => DetectObjects(infer(files[i])))
  }

  /** `process_images(input_dir, output_csv, model_name, output_dir)`: the
      table written, or why the function returned False (or, for
      `ListingRaised`, raised). */
  function ProcessImages(dir: Directory, modelLoads: bool,
                         infer: string -> Inference, csvWritable: bool): (r: Result<Table, Error>)
    ensures r.Success? <==> SelectImages(dir).Success? && modelLoads && csvWritable
    ensures SelectImages(dir).Failure? ==> r == Failure(SelectImages(dir).error)
    ensures r.Success? ==>
      var files := SelectImages(dir).value;
      r.value == BuildTable(files, CountAll(files, infer))
  {
    var files :- SelectImages(dir);
    if !modelLoads then Failure(ModelLoadFailed)
    else if !csvWritable then Failure(CsvWriteFailed)
    else Success(BuildTable(files, CountAll(files, infer)))
  }

  /** The written table has one row per processed image, in sorted file
      order, named after its file, and one column per class counted in any
      image. */
  lemma ProcessImagesTable(dir: Directory, modelLoads: bool,
                           infer: string -> Inference, csvWritable: bool)
    requires SelectImages(dir).Success? && modelLoads && csvWritable
    ensures ProcessImages(dir, modelLoads, infer, csvWritable).Success?
    ensures
      var t := ProcessImages(dir, modelLoads, infer, csvWritable).value;
      var files := SelectImages(dir).value;
      && Ascending(files)
      && |t.rows| == |files|
      && (forall i :: 0 <= i < |files| && "image" !in DetectObjects(infer(files[i])) ==>
            t.rows[i][0] == Str(files[i]))
      && (forall c :: c in t.header[1..] <==>
            exists i :: 0 <= i < |files| && c in DetectObjects(infer(files[i])))
  {
    var files := SelectImages(dir).value;
    var t := BuildTable(files, CountAll(files, infer));
    assert ProcessImages(dir, modelLoads, infer, csvWritable).value == t;
    assert t.header == Header(Categories(CountAll(files, infer)));
    ColumnsAreCountedClasses(files, infer);
  }

  lemma ColumnsAreCountedClasses(files: seq<string>, infer: string -> Inference)
    ensures var h := Header(Categories(CountAll(files, infer)));
      forall c :: c in h[1..] <==> exists i :: 0 <= i < |files| && c in DetectObjects(infer(files[i]))
  {
    CategoriesOfCounts(CountAll(files, infer), files, infer);
  }

  lemma CategoriesOfCounts(counts: seq<map<string, nat>>, files: seq<string>, infer: string -> Inference)
    requires |counts| == |files|
    requires forall i :: 0 <= i < |files| ==> counts[i] == DetectObjects(infer(files[i]))
    ensures forall c :: c in Categories(counts) <==> exists i :: 0 <= i < |files| && c in DetectObjects(infer(files[i]))
  {
    forall c | c in Categories(counts)
      ensures exists i :: 0 <= i < |files| && c in DetectObjects(infer(files[i]))
    {
      var i :| 0 <= i < |counts| && c in counts[i];
      assert c in DetectObjects(infer(files[i]));
    }
  }
}

=== FILE: output_name.dfy ===
/** `get_next_output_filename` of `yolo_faking/fake_yolo_detection.py`:
    pick the first of `base`, `stem_1.suffix`, `stem_2.suffix`, ... that does
    not name an existing file. The file system is the set of existing paths. */
module OutputName {
  import opened Text

  /** `directory / f"{stem}_{counter}{suffix}"`: a sibling of `base` whose
      name carries `_counter` between the stem and the suffix. */
  function Numbered(base: string, counter: nat): (path: string)
    ensures DirectoryPrefix(path) == DirectoryPrefix(base)
    ensures Name(path) == Stem(base) + "_" + Decimal(counter) + Suffix(base)
  {
    var name := Stem(base) + "_" + Decimal(counter) + Suffix(base);
    PartsOfPath(base);
    StemAndSuffix(base);
    NumberedNameHasNoSlash(Stem(base), Decimal(counter), Suffix(base));
    JoinPath(DirectoryPrefix(base), name);
    DirectoryPrefix(base) + name
  }

  lemma NumberedNameHasNoSlash(stem: string, digits: string, suffix: string)
    requires NoSlash(stem + suffix)
    requires forall i :: 0 <= i < |digits| ==> IsDigit(digits[i])
    ensures NoSlash(stem + "_" + digits + suffix)
  {
    var name := stem + "_" + digits + suffix;
    var plain := stem + suffix;
    forall i | 0 <= i < |name| ensures name[i] != '/' {
      if i < |stem| {
        assert name[i] == plain[i];
      } else if i == |stem| {
        assert name[i] == '_';
      } else if i < |stem| + 1 + |digits| {
        assert name[i] == digits[i - |stem| - 1];
      } else {
        assert name[i] == plain[i - 1 - |digits|];
      }
    }
  }

  /** Different counters give different names. */
  lemma NumberedInjective(base: string, m: nat, n: nat)
    requires Numbered(base, m) == Numbered(base, n)
    ensures m == n
  {
    var prefix := Stem(base) + "_";
    var a, b := Decimal(m), Decimal(n);
    var x := Name(Numbered(base, m));
    assert x == prefix + a + Suffix(base) == prefix + b + Suffix(base);
    assert |a| == |b|;
    assert a == x[|prefix|..|prefix| + |a|];
    assert b == x[|prefix|..|prefix| + |b|];
    DecimalInjective(m, n);
  }

  /** A finite set holds at most |existing| distinct numbered names. */
  lemma {:induction false} FewNumberedNamesExist(base: string, existing: set<string>, n: nat)
    requires forall m :: 1 <= m <= n ==> Numbered(base, m) in existing
    ensures n <= |existing|
    decreases n
  {
    if n > 0 {
      var rest := existing - {Numbered(base, n)};
      forall m | 1 <= m <= n - 1
        ensures Numbered(base, m) in rest
      {
        if Numbered(base, m) == Numbered(base, n) {
          NumberedInjective(base, m, n);
        }
      }
      FewNumberedNamesExist(base, rest, n - 1);
    }
  }

  /** `get_next_output_filename(base_path)`. */
  method NextOutputFilename(base: string, existing: set<string>) returns (path: string)
    ensures path !in existing
    ensures base !in existing ==> path == base
    ensures base in existing ==>
      exists n :: (&& n >= 1
                   && path == Numbered(base, n)
                   && forall m :: 1 <= m < n ==> Numbered(base, m) in existing)
  {
    if base !in existing {
      return base;
    }
    var counter := 1;
    while Numbered(base, counter) in existing
      invariant counter >= 1
      invariant forall m :: 1 <= m < counter ==> Numbered(base, m) in existing
      decreases |existing| + 1 - counter
    {
      FewNumberedNamesExist(base, existing, counter);
      counter := counter + 1;
    }
    return Numbered(base, counter);
  }
}

=== FILE: text.dfy ===
/** Character-level helpers the Python code gets from `str` and `pathlib`:
    lower-casing, code-point ordering of strings, decimal numerals and the
    name / stem / suffix split of a path. */
module Text {

  /** `str.lower()` restricted to ASCII letters. */
  function LowerChar(c: char): char {
    if 'A' <= c <= 'Z' then (c as int + 32) as char else c
  }

  function Lower(s: string): (r: string)
    ensures |r| == |s|
  {
    if s == [] then [] else [LowerChar(s[0])] + Lower(s[1..])
  }

  /** A string without capital letters is its own lower case. */
  lemma {:induction false} LowerKeepsLowerCase(s: string)
    requires forall i :: 0 <= i < |s| ==> !('A' <= s[i] <= 'Z')
    ensures Lower(s) == s
  {
    if s != [] {
      LowerKeepsLowerCase(s[1..]);
    }
  }

  // ---------------------------------------------------------------------
  // Python's ordering of `str`: lexicographic by code point, a proper
  // prefix before its extensions.
  // ---------------------------------------------------------------------

  predicate Less(a: string, b: string) {
    if a == [] then b != []
    else if b == [] then false
    else if a[0] != b[0] then a[0] < b[0]
    else Less(a[1..], b[1..])
  }

  predicate LessOrEqual(a: string, b: string) {
    a == b || Less(a, b)
  }

  lemma {:induction false} LessIrreflexive(a: string)
    ensures !Less(a, a)
  {
    if a != [] {
      LessIrreflexive(a[1..]);
    }
  }

  lemma {:induction false} LessTransitive(a: string, b: string, c: string)
    requires Less(a, b) && Less(b, c)
    ensures Less(a, c)
  {
    if a != [] && b != [] && c != [] && a[0] == b[0] && b[0] == c[0] {
      LessTransitive(a[1..], b[1..], c[1..]);
    }
  }

  lemma {:induction false} LessTotal(a: string, b: string)
    ensures a == b || Less(a, b) || Less(b, a)
  {
    if a != [] && b != [] && a[0] == b[0] {
      LessTotal(a[1..], b[1..]);
      if a[1..] == b[1..] {
        assert a == [a[0]] + a[1..] && b == [b[0]] + b[1..];
      }
    }
  }

  lemma {:induction false} LessAsymmetric(a: string, b: string)
    requires Less(a, b)
    ensures !Less(b, a)
  {
    if a != [] && b != [] && a[0] == b[0] {
      LessAsymmetric(a[1..], b[1..]);
    }
  }

  /** Strictly ascending: what `sorted()` yields for a set of strings. */
  predicate StrictlyAscending(s: seq<string>) {
    forall i, j :: 0 <= i < j < |s| ==> Less(s[i], s[j])
  }

  /** Ascending, duplicates allowed: what `list.sort()` yields. */
  predicate Ascending(s: seq<string>) {
    forall i, j :: 0 <= i < j < |s| ==> LessOrEqual(s[i], s[j])
  }

  predicate IsMinimum(m: string, s: set<string>) {
    m in s && forall y :: y in s ==> LessOrEqual(m, y)
  }

  lemma {:induction false} MinimumExists(s: set<string>)
    requires s != {}
    ensures exists m :: IsMinimum(m, s)
    decreases |s|
  {
    var x :| x in s;
    if s == {x} {
      assert forall y :: y in s ==> y == x;
      assert IsMinimum(x, s);
    } else {
      MinimumExists(s - {x});
      var m :| IsMinimum(m, s - {x});
      LessTotal(m, x);
      if Less(x, m) {
        forall y | y in s
          ensures LessOrEqual(x, y)
        {
          if y != x {
            assert LessOrEqual(m, y);
            if m != y {
              LessTransitive(x, m, y);
            }
          }
        }
        assert IsMinimum(x, s);
      } else {
        assert IsMinimum(m, s);
      }
    }
  }

  /** A set has at most one least element. */
  lemma MinimumUnique(s: set<string>)
    ensures forall m1, m2 :: IsMinimum(m1, s) && IsMinimum(m2, s) ==> m1 == m2
  {
    forall m1, m2 | IsMinimum(m1, s) && IsMinimum(m2, s)
      ensures m1 == m2
    {
      if m1 != m2 {
        assert Less(m1, m2) && Less(m2, m1);
        LessAsymmetric(m1, m2);
      }
    }
  }

  /** The least element of a non-empty set of strings. */
  function Minimum(s: set<string>): (m: string)
    requires s != {}
    ensures m in s
    ensures forall y :: y in s ==> LessOrEqual(m, y)
  {
    MinimumExists(s);
    MinimumUnique(s);
    var m :| IsMinimum(m, s);
    m
  }

  /** `sorted(s)` for a set `s` of strings. */
  function SortedSet(s: set<string>): (r: seq<string>)
    ensures |r| == |s|
    ensures forall x :: x in r <==> x in s
    ensures StrictlyAscending(r)
    decreases |s|
  {
    if s == {} then []
    else
      var m := Minimum(s);
      var rest := SortedSet(s - {m});
      forall i | 0 <= i < |rest|
        ensures Less(m, rest[i])
      {
        assert rest[i] in s - {m};
      }
      [m] + rest
  }

  lemma LessOrEqualTransitive(a: string, b: string, c: string)
    requires LessOrEqual(a, b) && LessOrEqual(b, c)
    ensures LessOrEqual(a, c)
  {
    if a != b && b != c {
      LessTransitive(a, b, c);
    }
  }

  /** Inserts `x` into an ascending list after every element smaller than it. */
  function Insert(x: string, s: seq<string>): (r: seq<string>)
    requires Ascending(s)
    ensures Ascending(r)
    ensures multiset(r) == multiset(s) + multiset{x}
    decreases |s|
  {
    if s == [] then [x]
    else if LessOrEqual(x, s[0]) then
      forall i | 0 <= i < |s| ensures LessOrEqual(x, s[i]) {
        LessOrEqualTransitive(x, s[0], s[i]);
      }
      [x] + s
    else
      LessTotal(x, s[0]);
      var tail := Insert(x, s[1..]);
      assert s == [s[0]] + s[1..];
      forall i | 0 <= i < |tail| ensures LessOrEqual(s[0], tail[i]) {
        assert tail[i] in multiset(tail);
        if tail[i] != x {
          assert tail[i] in multiset(s[1..]);
        }
      }
      [s[0]] + tail
  }

  /** `list.sort()` on strings: the same elements, in ascending order. */
  function Sort(s: seq<string>): (r: seq<string>)
    ensures Ascending(r)
    ensures multiset(r) == multiset(s)
    decreases |s|
  {
    if s == [] then []
    else
      assert s == [s[0]] + s[1..];
      Insert(s[0], Sort(s[1..]))
  }

  // ---------------------------------------------------------------------
  // Decimal numerals, as `str(n)` writes a non-negative int.
  // ---------------------------------------------------------------------

  predicate IsDigit(c: char) {
    '0' <= c <= '9'
  }

  function Digit(d: nat): (c: char)
    requires d < 10
    ensures IsDigit(c)
  {
    ('0' as int + d) as char
  }

  function Decimal(n: nat): (r: string)
    ensures |r| >= 1
    ensures forall i :: 0 <= i < |r| ==> IsDigit(r[i])
  {
    if n < 10 then [Digit(n)] else Decimal(n / 10) + [Digit(n % 10)]
  }

  /** Reads a string of digits back as a number; the partner of `Decimal`. */
  function ParseDecimal(s: string): nat
    requires forall i :: 0 <= i < |s| ==> IsDigit(s[i])
  {
    if s == [] then 0
    else
      assert IsDigit(s[|s| - 1]);
      ParseDecimal(s[..|s| - 1]) * 10 + (s[|s| - 1] as int - '0' as int)
  }

  lemma {:induction false} DecimalRoundTrip(n: nat)
    ensures ParseDecimal(Decimal(n)) == n
  {
    if n >= 10 {
      var d := Decimal(n);
      assert d[..|d| - 1] == Decimal(n / 10);
      DecimalRoundTrip(n / 10);
    }
  }

  lemma DecimalInjective(m: nat, n: nat)
    requires Decimal(m) == Decimal(n)
    ensures m == n
  {
    DecimalRoundTrip(m);
    DecimalRoundTrip(n);
  }

  // ---------------------------------------------------------------------
  // The parts of a POSIX path that `pathlib.PurePath` exposes.
  // ---------------------------------------------------------------------

  /** Position of the last `c` in `s`, or -1 (Python's `str.rfind`). */
  function LastIndex(s: string, c: char): (r: int)
    ensures -1 <= r < |s|
    ensures r >= 0 ==> s[r] == c
    ensures forall j :: r < j < |s| ==> s[j] != c
    decreases |s|
  {
    if s == [] then -1
    else if s[|s| - 1] == c then |s| - 1
    else LastIndex(s[..|s| - 1], c)
  }

  /** Everything up to and including the last `/`: the parent directory as
      a prefix that a new file name can be appended to. */
  function DirectoryPrefix(p: string): string {
    p[..LastIndex(p, '/') + 1]
  }

  /** `PurePath.name`: the last component. */
  function Name(p: string): string {
    p[LastIndex(p, '/') + 1..]
  }

  predicate NoSlash(s: string) {
    forall i :: 0 <= i < |s| ==> s[i] != '/'
  }

  /** Appending a file name to a directory prefix: the result splits back
      into the same directory and name. */
  lemma {:induction false} JoinPath(dir: string, name: string)
    requires dir == [] || dir[|dir| - 1] == '/'
    requires NoSlash(name)
    ensures DirectoryPrefix(dir + name) == dir && Name(dir + name) == name
  {
    var p := dir + name;
    var k := LastIndex(p, '/');
    if dir == [] {
      assert p == name;
    } else {
      assert p[|dir| - 1] == '/';
    }
    assert p[..k + 1] == dir;
    assert p[k + 1..] == name;
  }

  /** `PurePath.suffix`: from the last dot of the name, unless that dot
      starts or ends the name. */
  function Suffix(p: string): (r: string)
    ensures r == [] || r[0] == '.'
  {
    var name := Name(p);
    var i := LastIndex(name, '.');
    if 0 < i < |name| - 1 then name[i..] else ""
  }

  /** `PurePath.stem`: the name without its suffix. */
  function Stem(p: string): string {
    var name := Name(p);
    var i := LastIndex(name, '.');
    if 0 < i < |name| - 1 then name[..i] else name
  }

  /** The parent prefix ends in a separator, and the name holds none. */
  lemma PartsOfPath(p: string)
    ensures var d := DirectoryPrefix(p); d == [] || d[|d| - 1] == '/'
    ensures NoSlash(Name(p))
  {
  }

  /** The stem and the suffix split the name. */
  lemma StemAndSuffix(p: string)
    ensures Stem(p) + Suffix(p) == Name(p)
  {
    var name := Name(p);
    var i := LastIndex(name, '.');
    if 0 < i < |name| - 1 {
      assert name[..i] + name[i..] == name;
    }
  }

  lemma PathParts(p: string)
    ensures DirectoryPrefix(p) + Stem(p) + Suffix(p) == p
  {
    PrefixAndName(p);
    StemAndSuffix(p);
    var d, st, su := DirectoryPrefix(p), Stem(p), Suffix(p);
    assert d + st + su == d + (st + su);
  }

  /** The parent prefix and the name split the path. */
  lemma PrefixAndName(p: string)
    ensures DirectoryPrefix(p) + Name(p) == p
  {
    var k := LastIndex(p, '/') + 1;
    assert p[..k] + p[k..] == p;
  }
}

=== FILE: wrappers.dfy ===
/** Failure-carrying datatypes shared by every module of the model. */
module Wrappers {

  /** A value that may be absent: Python's `None` or a missing dictionary key. */
  datatype Option<+T> = None | Some(value: T) {

    /** The wrapped value, or `default` when there is none (Python's `x or default`). */
    function GetOr(default: T): T {
      match this
      case Some(v) => v
      case None => default
    }
  }

  /** Either a value or the error that the source would have raised. */
  datatype Result<+R, +E> = Success(value: R) | Failure(error: E) {

    predicate IsFailure() {
      Failure?
    }

    function PropagateFailure<U>(): Result<U, E>
      requires Failure?
    {
      Failure(error)
    }

    function Extract(): R
      requires Success?
    {
      value
    }
  }
}
